=== FILE: README.md ===
# flirror crawler core in Dafny

Flirror is a smart-mirror application. Its crawler side fetches data for each
configured module and keeps the result in a key/value object store, which the
web side reads. This project models the small, sequential decision procedures
under the network, Flask and CLI layers. Each is a pure function over explicit
state: the store, the job list and the clock. Every answer from an outside
service is an input.

| file | module | models |
|---|---|---|
| errors.dfy | `Errors` | flirror's exception classes (`CrawlerConfigError`, `CrawlerDataError`, `GoogleOAuthError`), plus the library exceptions the code lets escape; `Result`/`Option` |
| database.dfy | `Database` | the `FlirrorObject` table as `map<string, Json>`; `store_object_by_key` (an upsert) and `get_object_by_key`; the per-module key `"<object key>-<module id>"` |
| pylist.dfy | `PyList` | the Python list idioms the crawlers rely on: `xs[:n]` (negative `n` included), `xs[::-1]`, a filtering comprehension, and an `extend` loop whose steps can fail |
| interval.dfy | `Interval` | the interval-string grammar, taken from its tests: a run of digits, then a unit word |
| scheduling.dfy | `Scheduling` | `INTERVAL_METHODS` and `Scheduler.add_job`/`_add_job`; `run_all` on the plain and the fault-isolating ("safe") scheduler; one `run_pending` tick |
| google_auth.dfy | `GoogleAuth` | the OAuth token lifecycle, described below |
| crawl_main.dfy | `CrawlMain` | the `crawl` command, described below |
| calendar.dfy | `Calendar` | the calendar crawler and `_parse_event_data` |
| newsfeed.dfy | `Newsfeed` | the news feed crawler |
| stocks.dfy | `Stocks` | `list_filter` and the stocks crawler, in table and intraday modes |

The OAuth token lifecycle in `GoogleAuth` covers:

- the device authorization grant of RFC 8628, sections 3.1 to 3.5;
- the refresh grant of RFC 6749, section 6;
- the three paths of `authenticate`;
- the bounded polling loop;
- `get_credentials`, and the error paths of `_get_oauth_flow`.

The `crawl` command in `CrawlMain`:

1. filters the configured modules by the requested ids;
2. fails when nothing matches or nothing is configured;
3. skips configs whose type has no registered crawler;
4. defaults the interval to `"5m"`;
5. plans one `add_job` call per remaining config;
6. picks the periodic or the batch run.

How the model represents the program:

- **Exceptions.** A Python exception is an `Err`. A `KeyError` (or a
  `TypeError`/`ValueError`) on a named field or argument is
  `RuntimeFault(name)`. A connection failure is `ConnectionFailure`.
- **Writes before a failure.** When a write may be followed by an exception,
  the operation returns a `Step(store, result)`. The refresh, for example,
  stores its record before it reads `access_token` back.
- **Time and the network.** `time.time()` readings, HTTP replies, feed and
  API answers arrive as parameters.
- **Timestamps.** Timestamps are integers.
- **The polling loop.** The loop consumes a finite sequence of attempts. Each
  attempt carries the seconds it took, so the clock advances by the latency
  plus the device's `interval`.

Modelling choices where the code's behaviour is followed:

- **Interval grammar.** The code's tests accept any unit word (`"6483ms"`,
  `"5minutes"`). `add_job` then skips units other than `s`, `m` and `h`.
- **Unparsable interval.** It raises a config error out of `add_job`. It is
  not a silent skip.
- **Zero intervals.** A zero count (`"0s"`) is accepted, because nothing in
  the tests excludes it.
- **Device-flow polling.** Polling retries on every HTTP error status, not
  only on "authorization pending" (a deviation from section 3.5 of RFC 8628).
- **Validity.** A token is valid while `expires_in > now` and is refreshed
  when `expires_in <= now` (flirror/crawler/google_auth.py:58).

## Model

| member | source | states |
|---|---|---|
| Database.StoreObject | flirror/database.py:65-73 | an upsert: afterwards the key holds the new value, no key other than it is added, and every other key keeps its value |
| Database.GetObject | flirror/database.py:76-83 | a lookup yields a value exactly when the key is present, and then it is the stored value; a missing key gives None (the store is a value and cannot change) |
| Database.StoreThenGet | flirror/database.py:65-79 | reading a key right after storing under it returns what was stored |
| Database.StoreExistingKeepsCount | flirror/database.py:65-69 | storing under an existing key replaces its value without creating a second record |
| Database.StoreNewAddsOne | flirror/database.py:70-73 | storing under a new key creates exactly one record |
| Database.StoreFrame | flirror/database.py:65-73 | a store under one key leaves the lookup of every other key unchanged |
| Database.StoreLastWins | flirror/database.py:65-69 | of two stores under the same key only the later one is visible |
| Database.StoreSameIsIdentity | flirror/database.py:65-69 | re-storing a key's current value changes nothing |
| Database.StoresCommute | flirror/database.py:65-73 | stores under different keys can be reordered |
| Database.ModuleDataKeyInjective | flirror/api.py:79-81 | with the same object key, different module ids are kept under different keys, so modules never overwrite each other's data |
| PyList.TakePrefix | flirror/modules/newsfeed/__init__.py:48 | `xs[:n]` is a prefix of `xs` whose length follows Python's slice rules, negative bounds included |
| PyList.TakePrefixAll | flirror/modules/newsfeed/__init__.py:48 | a bound of at least the list's length keeps the whole list |
| PyList.Reverse | flirror/modules/stocks/__init__.py:83 | `xs[::-1]` has the same length, with item `i` taken from position `len - 1 - i` |
| PyList.ReverseInvolution | flirror/modules/stocks/__init__.py:83 | reversing twice gives the original list back |
| PyList.ReverseAppend | flirror/modules/stocks/__init__.py:83 | reversing a concatenation reverses the order of the parts |
| PyList.FilterMembers | flirror/modules/calendar/__init__.py:72 | a comprehension with a condition keeps exactly the items that satisfy it |
| PyList.FilterEmpty | flirror/modules/calendar/__init__.py:72-73 | the filtered list is empty exactly when no item satisfies the condition |
| PyList.FilterAppend | flirror/crawler/main.py:73 | filtering keeps the input order: the filter of a concatenation is the concatenation of the filters |
| PyList.FilterAll | flirror/crawler/main.py:73 | when every item passes, the filter returns the list unchanged |
| PyList.ConcatMapOk | flirror/modules/calendar/__init__.py:80-107 | a loop that extends a list with each item's results succeeds exactly when every item's step succeeds |
| PyList.ConcatMapAppend | flirror/modules/calendar/__init__.py:80-107 | running that loop over two lists one after the other gives the two outputs concatenated |
| PyList.ConcatMapError | flirror/modules/calendar/__init__.py:80-107 | a failing loop fails with the error of its first failing item, every earlier item having succeeded |
| Interval.ParseInterval | tests/test_utils.py:11-34 | a string parses exactly when it is a non-empty digit run followed by a non-empty letter run; the result is the run's decimal value and the unit; otherwise it is a config error naming the string |
| Interval.ParseSplitsAtDigits | tests/test_utils.py:11-24 | a successful parse splits the string where its leading digits end |
| Interval.ParseFormat | tests/test_utils.py:11-24 | formatting a count and a unit word and parsing the result gives the pair back |
| Interval.FormatParse | tests/test_utils.py:11-24 | a parsed string without leading zeros is reproduced by formatting its parse |
| Interval.ParseAcceptsLetterUnits | tests/test_utils.py:14-17 | "5m", "10s" and "7h" parse to (5,"m"), (10,"s") and (7,"h") |
| Interval.ParseAcceptsMilliseconds | tests/test_utils.py:16 | "6483ms" parses to (6483,"ms") |
| Interval.ParseAcceptsMinutes | tests/test_utils.py:18 | "5minutes" parses to (5,"minutes") |
| Interval.ParseAcceptsSeconds | tests/test_utils.py:19 | "10seconds" parses to (10,"seconds") |
| Interval.ParseAcceptsHours | tests/test_utils.py:20 | "7hours" parses to (7,"hours") |
| Interval.ParseAcceptsSchedulerExamples | tests/crawler/test_scheduling.py:20-23 | the scheduler test's intervals "30s", "10m" and "1h" parse to (30,"s"), (10,"m") and (1,"h") |
| Interval.ParseErrorMentionsInterval | tests/test_utils.py:34 | every parse error message contains "Could not parse interval string" |
| Interval.ParseRejectsExamples | tests/test_utils.py:27-34 | "m5", "5000" and "ms" are rejected with a config error |
| Scheduling.UnitMethod | flirror/crawler/scheduling.py:9 | exactly the units "s", "m" and "h" have a scheduling method |
| Scheduling.IntervalMethodNames | flirror/crawler/scheduling.py:9 | "s", "m" and "h" name the methods "seconds", "minutes" and "hours" |
| Scheduling.NewJob | flirror/crawler/scheduling.py:42-45 | a new job has never run, and its next run is one period after registration, so it is in the future for a positive interval |
| Scheduling.AddJob | flirror/crawler/scheduling.py:21-40 | a parse error propagates; an unknown unit leaves the job list unchanged; otherwise exactly one job is appended after the existing ones, with the parsed count, the unit's method, the crawler's action and a fresh schedule |
| Scheduling.AddJobSchedulable | flirror/crawler/scheduling.py:25-45 | a crawler whose interval has a known unit gets exactly its job appended |
| Scheduling.AddJobSkipsUnknownUnits | flirror/crawler/scheduling.py:31-38 | intervals in "ms" or "minutes" parse but add no job |
| Scheduling.AddJobsAppendsInOrder | tests/crawler/test_scheduling.py:19-50 | successive `add_job` calls append one job per crawler, in call order, after the existing jobs |
| Scheduling.AddJobsExample | tests/crawler/test_scheduling.py:19-50 | crawlers with "30s", "5m", "10m" and "1h" give jobs (30, seconds), (5, minutes), (10, minutes) and (1, hours), in that order |
| Scheduling.RunAllSafe | tests/crawler/test_scheduling.py:69-76 | the safe `run_all` never propagates an error: every job, raising or not, is marked as run now and rescheduled one period later |
| Scheduling.RunAllSafeLogsFailures | tests/crawler/test_scheduling.py:69-73 | the safe run logs a failure for every raising job, and every logged failure comes from a raising job |
| Scheduling.RunAllPlain | tests/crawler/test_scheduling.py:57-67 | the plain `run_all` ends without an error exactly when every job completes |
| Scheduling.RunAllPlainStopsAtFirstRaise | tests/crawler/test_scheduling.py:57-67 | the plain run reschedules the jobs before the first raising one and propagates that job's message; that job and every later one keep their schedule (never run, next run unchanged) |
| Scheduling.SafeMatchesPlainWithoutFailures | tests/crawler/test_scheduling.py:57-76 | when no job raises, the two schedulers leave identical job lists and the safe one logs nothing |
| Scheduling.FailingJobScenario | tests/crawler/test_scheduling.py:53-76 | for an hourly job that always raises, the plain run raises "I will always fail" and leaves last_run unset and next_run in the future; the safe run sets last_run before a later "now", sets next_run after it, and logs the failure |
| Scheduling.RunPending | flirror/crawler/main.py:118-119 | one tick of the safe periodic loop the crawl command starts: exactly the due jobs are rescheduled to now plus their interval, whether or not they raised, and jobs not yet due are left untouched |
| Scheduling.RunPendingLeavesNothingDue | flirror/crawler/main.py:118-119 | after a safe tick no job with a positive interval is still due, so a raising job is not retried at once |
| Scheduling.RunPendingAllDueIsRunAll | tests/crawler/test_scheduling.py:69-76 | when every job is due, a tick is the safe `run_all`: the same rescheduled jobs and the same log of raising jobs |
| Scheduling.RunPendingIdleTick | flirror/crawler/main.py:118-119 | a tick with no job due changes no job and logs no failure |
| GoogleAuth.GetOAuthFlow | flirror/crawler/google_auth.py:180-196 | a missing GOOGLE_OAUTH_CLIENT_SECRET variable and a missing client-secret file each give their OAuth error; otherwise the result is the configuration in the named file |
| GoogleAuth.OAuthFlowErrors | tests/test_google_auth.py:60-84 | without the variable the error is the fixed message; with a path to no file the error message names that path |
| GoogleAuth.WithAbsoluteExpiry | flirror/crawler/google_auth.py:87-89 | a relative `expires_in` becomes the absolute time `now + expires_in`, and every other field is kept; a missing or non-numeric one is a KeyError/TypeError |
| GoogleAuth.RefreshAccessToken | flirror/crawler/google_auth.py:70-98 | only the token key is written; flow and connection errors write nothing; a good answer is stored with absolute expiry, the answer's refresh token or else the one that was used, and every other field as received; the access token returned is the one stored |
| GoogleAuth.RefreshKeepsRefreshToken | tests/test_google_auth.py:13-49 | the test's refresh at `now` returns "some_access_token" and stores exactly that token, expiry `now + 3600`, the used refresh token, the scope and the token type |
| GoogleAuth.RefreshTakesNewRefreshToken | flirror/crawler/google_auth.py:91-97 | when the answer carries a refresh token, that new token is the one persisted |
| GoogleAuth.RefreshedTokenIsCached | flirror/crawler/google_auth.py:57-65 | after a refresh, every `authenticate` within the granted lifetime returns the refreshed token from the store, without a request |
| GoogleAuth.Poll | flirror/crawler/google_auth.py:139-159 | only the token key is written, and only on success; success stores the returned token and happens before the device expiry; at or past the expiry the loop raises the device-expired OAuth error and stores nothing |
| GoogleAuth.PollRetriesOnAnyHttpError | flirror/crawler/google_auth.py:151-158 | any HTTP error status (400 to 599) sleeps the device interval and retries with the remaining attempts |
| GoogleAuth.PollStoresFirstGrant | flirror/crawler/google_auth.py:143-150 | the first non-error answer before expiry ends the loop and stores the token, with expiry measured from the time of that request |
| GoogleAuth.PollBounded | flirror/crawler/google_auth.py:139-159 | with an interval of at least one second the loop ends within `expires_at - now` attempts |
| GoogleAuth.AskForAccess | flirror/crawler/google_auth.py:100-137 | only the token key is written; flow and connection errors write nothing; a grant without `expires_in` is a fault; otherwise polling starts once the request has returned, against the absolute expiry "request time + expires_in", and the poll's store, its error, or the `access_token` of its token is the result |
| GoogleAuth.DeviceGrantExpiresFromRequest | flirror/crawler/google_auth.py:107-123 | a device code whose lifetime is used up by the request itself expires before the first poll and writes nothing |
| GoogleAuth.Authenticate | flirror/crawler/google_auth.py:45-68 | only the token key is written; with no stored record the device flow runs; a returned token is always the one the store holds |
| GoogleAuth.MissingTokenRunsDeviceFlow | flirror/crawler/google_auth.py:52-55 | with no stored record `authenticate` is the device flow, and the refresh answer plays no part |
| GoogleAuth.ExpiredTokenIsRefreshed | flirror/crawler/google_auth.py:57-63 | a record with `expires_in <= now` is refreshed with its stored refresh token, and the device-flow answers play no part |
| GoogleAuth.CachedTokenNeedsNoNetwork | flirror/crawler/google_auth.py:64-65 | a record with `expires_in > now` returns its access token, with the store unchanged, whatever the network would answer |
| GoogleAuth.TokenIsCachedUntilExpiry | flirror/crawler/google_auth.py:52-68 | once `authenticate` succeeds, a later `authenticate` before the stored expiry returns the same token and store without any request |
| GoogleAuth.GetCredentials | flirror/crawler/google_auth.py:28-43 | writes what `authenticate` writes; an error of `authenticate` is the result; a None token gives no credentials; a token and a loadable flow always give credentials, carrying the client id and secret from the flow and that token, and a token whose flow fails to load gives the flow's error |
| GoogleAuth.CachedTokenYieldsCredentials | flirror/crawler/google_auth.py:28-43 | a valid stored token yields credentials built from it without touching the store |
| GoogleAuth.MissingSecretYieldsNoCredentials | flirror/crawler/google_auth.py:180-186 | without the client-secret variable no credentials are produced and the store is not touched |
| CrawlMain.SelectByIds | flirror/crawler/main.py:71-73 | the id filter succeeds exactly when every config has an `id` (else a KeyError on "id"), and selects nothing exactly when no config's id was requested |
| CrawlMain.SelectByIdsMembers | flirror/crawler/main.py:73 | a config is selected exactly when it is configured and its id is among the requested ids |
| CrawlMain.SelectByIdsAppend | flirror/crawler/main.py:73 | the selection keeps configuration order |
| CrawlMain.SelectByIdsSingle | flirror/crawler/main.py:73 | a single config is selected exactly when its id was requested |
| CrawlMain.Selection | flirror/crawler/main.py:71-87 | without ids every configured module is selected, and an empty configuration fails with "No modules specified"; with ids the id filter is used, and an empty result fails with the not-found message; a selection is never empty |
| CrawlMain.UnknownIdsFail | flirror/crawler/main.py:76-80 | when no configured id was requested, `crawl` fails with the not-found message and plans no job |
| CrawlMain.UnknownModuleMessage | tests/crawler/test_main.py:60-68 | for the id "unknown" the message reads "None of the specified modules 'unknown' could be found in the configuration file. Nothing to run." |
| CrawlMain.EmptyConfigFails | flirror/crawler/main.py:84-87 | an empty configuration without ids fails with "No modules specified in config file. Nothing to run." |
| CrawlMain.AllModulesWithoutIds | flirror/crawler/main.py:81-82 | without ids the plan covers every configured module |
| CrawlMain.IntervalOf | flirror/crawler/main.py:114 | the interval is the `crawler.interval` setting when present and "5m" when the setting or the whole `crawler` section is missing |
| CrawlMain.DefaultInterval | flirror/crawler/main.py:114 | a config without an interval is registered with "5m" |
| CrawlMain.JobCall | flirror/crawler/main.py:109-115 | an `add_job` call binds the config's parameters, the id and the interval; it fails exactly when the parameters cannot be bound or the `crawler` section is not a mapping |
| CrawlMain.PlanJobs | flirror/crawler/main.py:91-115 | planning succeeds exactly when every config is either skipped or callable, and plans at most one call per config |
| CrawlMain.PlanJobsAppend | flirror/crawler/main.py:91-115 | planning keeps configuration order |
| CrawlMain.UnknownTypeIsSkipped | flirror/crawler/main.py:100-107 | a config whose type has no registered crawler plans no call |
| CrawlMain.SkipThenContinue | flirror/crawler/main.py:100-107 | a skipped config does not stop the configs after it |
| CrawlMain.KnownTypeAddsOneJob | flirror/crawler/main.py:109-115 | a config with a registered type plans exactly its one call |
| CrawlMain.OneJobPerKnownConfig | flirror/crawler/main.py:91-115 | when every config has a known type, the plan has exactly one call per config, in configuration order |
| CrawlMain.Crawl | flirror/crawler/main.py:64-121 | a selection error is the command's error; otherwise the plan is the planned calls; the run is periodic exactly when `--periodic` was given, and a batch `run_all` otherwise |
| Calendar.Lower | flirror/modules/calendar/__init__.py:72 | lower-casing keeps the length and maps each capital ASCII letter to a small one |
| Calendar.SelectIgnoresCase | flirror/modules/calendar/__init__.py:72 | a calendar is selected exactly when its lower-cased summary is among the configured names |
| Calendar.SelectKeepsOrder | flirror/modules/calendar/__init__.py:72 | selection keeps the order of the calendar list |
| Calendar.ParseEvent | flirror/modules/calendar/__init__.py:116-141 | an event with `start.dateTime` is timed and starts then; otherwise it is all-day and starts at `start.date`; the end is `end.dateTime`, falling back to `end.date`; summary and location are kept; a missing field raises |
| Calendar.EventKinds | flirror/modules/calendar/__init__.py:117-124 | a date-only event is "day" and uses the dates; a dateTime event is "time" and uses the times, even when a date is also present |
| Calendar.ParseEvents | flirror/modules/calendar/__init__.py:106-107 | one parsed event per raw event, in order, failing exactly when one of them fails |
| Calendar.GatherEventsOk | flirror/modules/calendar/__init__.py:80-107 | gathering succeeds exactly when every selected calendar's events request answers and its events parse |
| Calendar.GatherEventsAppend | flirror/modules/calendar/__init__.py:80-107 | the gathered list holds each calendar's events in calendar order |
| Calendar.SortByStart | flirror/modules/calendar/__init__.py:110 | the sorted events are ordered by start and are a permutation of the input |
| Calendar.SortIsStable | flirror/modules/calendar/__init__.py:110 | events with the same start keep their relative order, as Python's `sorted` promises |
| Calendar.SortedPrefixIsEarliest | flirror/modules/calendar/__init__.py:110-112 | a prefix of a sorted list is sorted and starts no later than any event it drops |
| Calendar.CalendarEvents | flirror/modules/calendar/__init__.py:59-112 | a refused token, a failed listing request, a listing without items and a selection matching no calendar each give their error; otherwise the result is Ok exactly when every selected calendar's events are fetched and parse, the first failure being the error, and an Ok result is the first `max_items` events of all selected calendars, sorted by start |
| Calendar.StoredEventsAreEarliestSorted | flirror/modules/calendar/__init__.py:106-113 | the stored events are sorted, number `max_items` at most (Python's slice length), and together with the dropped ones form all gathered events; none starts after a dropped one |
| Calendar.NoMatchingCalendarFails | flirror/modules/calendar/__init__.py:72-78 | when no calendar's summary matches, the crawl fails with a data error and stores nothing |
| Calendar.Crawl | flirror/modules/calendar/__init__.py:35-113 | a connection failure and missing credentials become data errors; other credential errors pass through; with credentials, the crawl fails exactly when the calendar step does, with that step's error, and on success the events are stored once, under the module's key |
| Calendar.CrawlAsWritten | flirror/modules/calendar/__init__.py:42-49 | with its handler as written, a credential error always escapes unchanged; on every other input it behaves as `Calendar.Crawl` |
| Calendar.ConnectionFailureEscapesAsWritten | flirror/modules/calendar/__init__.py:42-47 | a lost connection escapes the crawl as written but is the "Unable to connect to Google API" data error in the intended crawl |
| Calendar.ConnectionFailureOnlyFromRequests | flirror/modules/calendar/__init__.py:42-99 | in the intended crawl a raw connection error comes only from the calendar-list request or from a selected calendar's events request, never from the credential step; one from the calendar-list request does escape |
| Newsfeed.ShapeEntry | flirror/modules/newsfeed/__init__.py:49-57 | an item is built exactly when the entry has all its attributes: title and summary as given, the entry id as the link |
| Newsfeed.ShapeEntries | flirror/modules/newsfeed/__init__.py:48-57 | one item per entry, in feed order, failing exactly when some entry is incomplete |
| Newsfeed.Crawl | flirror/modules/newsfeed/__init__.py:27-59 | a bozo exception is a data error; an empty feed stores nothing; otherwise the shaped first `max_items` entries are stored once, under the module's key |
| Newsfeed.StoredNewsAreFirstEntries | flirror/modules/newsfeed/__init__.py:48-57 | the stored news are the first min(max_items, number of entries) entries in feed order, each built from its own entry |
| Newsfeed.CrawlStoresOnlyItsKey | flirror/modules/newsfeed/__init__.py:44-59 | a crawl writes only the module's key, and an empty feed writes nothing |
| Newsfeed.LargeBoundKeepsAll | flirror/modules/newsfeed/__init__.py:48 | a bound of at least the feed's length stores every entry |
| Newsfeed.EntriesPastBoundIgnored | flirror/modules/newsfeed/__init__.py:48 | entries past the bound do not affect what is kept |
| Stocks.ListFilter | flirror/modules/stocks/__init__.py:25-27 | the result has the same length and order, holding `d[key]` for each dict; a dict without the key raises a KeyError on it |
| Stocks.ListFilterAppend | flirror/modules/stocks/__init__.py:25-27 | filtering a concatenation concatenates the results |
| Stocks.Normalize | flirror/modules/stocks/__init__.py:68-76 | a sample with all of "1. open" to "5. volume" becomes a dict with exactly the keys open, high, low, close and volume, each holding its source field; a missing one raises |
| Stocks.Collect | flirror/modules/stocks/__init__.py:65-77 | the values and times lists have one entry per sample, in the API's iteration order, and are built exactly when every sample is complete |
| Stocks.IntradayReversedInLockstep | flirror/modules/stocks/__init__.py:65-83 | the stored values and times have equal length, and position `i` of each holds the sample and time from position `len - 1 - i` of the API's order |
| Stocks.TableEntry | flirror/modules/stocks/__init__.py:45-51 | a table entry holds the symbol, the alias and the first element of the quote result; an empty result raises |
| Stocks.Entry | flirror/modules/stocks/__init__.py:36-86 | "table" mode uses the quote and any other mode the intraday series; an unreachable API is the data error "Could not connect to Alpha Vantage API", and any other error of the call escapes unchanged |
| Stocks.OtherModesAreIntraday | flirror/modules/stocks/__init__.py:37-52 | in any mode other than "table" the quote endpoint plays no part |
| Stocks.Entries | flirror/modules/stocks/__init__.py:36-86 | one entry per (symbol, alias), in input order, failing exactly when one of them fails |
| Stocks.EntriesFirstFailure | flirror/modules/stocks/__init__.py:36-86 | a failing loop fails with the error of the first failing pair, every earlier pair having produced its entry |
| Stocks.TableEntriesInOrder | flirror/modules/stocks/__init__.py:36-51 | in table mode entry `i` is built from symbol `i`'s quote, with `data` the first element of the result |
| Stocks.Crawl | flirror/modules/stocks/__init__.py:31-92 | the crawl succeeds exactly when every entry does, and then stores them once, under the module's key; on failure the entry's error is returned and nothing is stored |
| Stocks.UnreachableFailsCrawl | flirror/modules/stocks/__init__.py:41-59 | if the first symbol's request cannot connect, the crawl fails with the data error before anything is stored |

## Left out

- Real clock, sleeping and the endless periodic loop: time readings and pauses are parameters, and the loop is one tick (`Scheduling.RunPending`).
- `Scheduling.RunPending`: models a tick of `SafeScheduler.start`, the loop `main.py` starts in periodic mode. `SafeScheduler` is not part of this model, so its fault isolation is taken from the safe `run_all` test (tests/crawler/test_scheduling.py:69-76). The plain `Scheduler.start` loop (flirror/crawler/scheduling.py:47-51), where a raising job would end the loop, is not modelled. The tick runs and logs the due jobs in registration order, while the library runs them sorted by next run time, so the failure log of `Scheduling.RunPendingAllDueIsRunAll` matches only when the due jobs are already in that order; the rescheduled jobs do not depend on the order.
- The `schedule` library and `SafeScheduler` are not part of this model. The job record, the "next run = now + interval" rule, and the safe and plain `run_all` are modelled on the scheduler tests.
- Job tags and the library's `job_func` wrapper: a job's action is the crawler id.
- `parse_interval_string` is not part of this model. The grammar covers the tested strings only, with ASCII digits and letters. Whitespace forms such as "5 hours", which the tests mark as open, are rejected.
- `Scheduling.AddJob` follows `scheduling.py`'s `add_job(crawler)`. `main.py` calls `add_job(func, crawler_id, interval)` on a newer scheduler. `CrawlMain` therefore records those calls as `AddJobCall` values and does not feed them into `Scheduling`.
- `Calendar.Crawl` takes the result of `get_credentials` as an input. The calendar module builds `GoogleOAuth` with three arguments, while `google_auth.py` accepts only `scopes`.
- The default `max_items=5` of the calendar and newsfeed crawls (flirror/modules/calendar/__init__.py:36, flirror/modules/newsfeed/__init__.py:27) is not modelled: callers always pass the bound.
- `GoogleAuth.Authenticate`: takes one clock reading for both the validity check and the refresh. The code reads the clock again in `refresh_access_token` (flirror/crawler/google_auth.py:81), a moment later.
- `Calendar.CalendarEvents`: a calendar-list entry always has an `id` and a `summary`. The `KeyError` the code raises for a missing one (flirror/modules/calendar/__init__.py:72, 87, 92) is not modelled.
- `Calendar.ParseEvent`: a `start` or `end` with neither `dateTime` nor `date` is a fault. The code passes `None` to `arrow.get` (flirror/modules/calendar/__init__.py:129-130), whose result depends on the unpinned `arrow` version, which may give the current time instead of raising.
- `Calendar.Lower`: lower-cases ASCII letters only, because Python's full Unicode case mapping is not modelled.
- `app.store_module_data` is not part of this model. Module data is written with `StoreObject` under `"<object key>-<module id>"`, the key `flirror/api.py:81` reads back.
- Every HTTP exchange is an input value: requests and their bodies, URLs, the Google `Flow` client-secret parsing, `googleapiclient`, `feedparser` and `alpha_vantage`. The calendar-list and events requests, and the Alpha Vantage quote and intraday calls, may each answer or fail with any error; apart from the connection errors the stocks crawl converts, the crawls let such errors escape. The client-secret file is a map from path to client id and secret.
- `GoogleAuth.Poll` reads the client configuration once, in `AskForAccess`. The code re-reads it on every request, but the environment does not change between requests.
- `GoogleAuth.Poll` returns the model-only error `TraceEnded` when the supplied attempts run out before the loop ends. `GoogleAuth.PollBounded` shows a long enough sequence never runs out.
- Date and float conversions (`arrow`, `datetime(...).timestamp()`, `time.time()` fractions): timestamps are integers. A feed entry's `updated_parsed` arrives already converted.
- The intraday `meta_data` is kept as an opaque JSON value.
- Stocks' `api_key` parameter is ignored, as in the code, which passes a placeholder key.
- Python's `repr` of the configured calendar names, in the no-match message, quotes each name without escaping.
- Logging, click wiring, configuration loading, the Flask web layer, the view-only modules, module discovery and the Pony ORM entities are outside the modelled core.
- Nothing here is concurrent.

## Findings

| source | as written | input that shows it | evidently intended | confidence | as-written member | corrected member |
|---|---|---|---|---|---|---|
| flirror/modules/calendar/__init__.py:42-47 | the handler around `get_credentials` catches the builtin `ConnectionError`, which the module never rebinds; requests raises its own `ConnectionError`, which derives from `IOError`, not from the builtin | `get_credentials` fails with requests' connection error: the crawl lets it escape instead of raising the data error | a lost connection raises `CrawlerDataError("Unable to connect to Google API")`, as the stocks crawl does by importing requests' class (flirror/modules/stocks/__init__.py:6, 43) | medium, not executed | Calendar.CrawlAsWritten | Calendar.Crawl |

=== FILE: calendar.dfy ===
/** The calendar crawler (flirror/modules/calendar/__init__.py): with the
    user's Google credentials, list the calendars, keep the configured ones,
    collect their upcoming events, sort them by start time and store the
    first `max_items` under the module's key. The credentials, the calendar
    list and each calendar's events are inputs; event times arrive as
    timestamps, the result of the date conversion. */
module Calendar {
  import opened Errors
  import opened Database
  import opened PyList
  import GoogleAuth

  const OBJECT_KEY: string := "module_calendar"

  const CONNECT_MESSAGE: string := "Unable to connect to Google API"

  const AUTH_MESSAGE: string := "Unable to authenticate to Google API"

  const PERMISSION_MESSAGE: string :=
    "Could not retrieve calendar list. Maybe flirror doesn't have the permission to access your calendar."

  /** One entry of the calendar list. */
  datatype CalendarItem = CalendarItem(id: string, summary: string)

  /** The calendar-list request: its `items`, if the answer has any, the
      RefreshError Google raises for a token it does not accept, or any other
      error the request raises (a transport or HTTP error), which the crawl
      does not catch. */
  datatype CalendarListing = Listed(items: Option<seq<CalendarItem>>) | RefreshRejected | ListingFailed(error: Error)

  /** The events request, per calendar id: the `items` of its answer (an
      answer without them counts as no events), or the error the request
      raised, which the crawl does not catch. */
  type EventsRequest = string -> Result<seq<RawEvent>>

  /** An event's `start` or `end`: a point in time, or a whole day. */
  datatype EventTime = EventTime(dateTime: Option<int>, date: Option<int>)

  /** An event as the API returns it. */
  datatype RawEvent = RawEvent(summary: Option<string>, start: EventTime, end: EventTime, location: Option<string>)

  /** The `type` of a stored event: "time" for a timed event, "day" for an
      all-day one. */
  datatype EventKind = Timed | AllDay

  /** An event as stored. */
  datatype Event = Event(summary: string, start: int, end: int, kind: EventKind, location: Option<string>)

  /** Python's list repr of the configured calendar names. */
  function ReprList(names: seq<string>): string {
    "[" + ReprItems(names) + "]"
  }

  function ReprItems(names: seq<string>): string {
    if |names| == 0 then ""
    else if |names| == 1 then "'" + names[0] + "'"
    else "'" + names[0] + "', " + ReprItems(names[1..])
  }

  function NoMatchMessage(calendars: seq<string>): string {
    "None of the provided calendars matched the list I got from Google: " + ReprList(calendars)
  }

  /** `str.lower` on ASCII letters. */
  function LowerChar(c: char): (r: char)
    ensures 'A' <= c <= 'Z' ==> 'a' <= r <= 'z'
    ensures !('A' <= c <= 'Z') ==> r == c
  {
    if 'A' <= c <= 'Z' then (c as int + 32) as char else c
  }

  function Lower(s: string): (r: string)
    ensures |r| == |s|
    ensures forall i :: 0 <= i < |s| ==> r[i] == LowerChar(s[i])
  {
    if |s| == 0 then [] else [LowerChar(s[0])] + Lower(s[1..])
  }

  /** True iff the calendar's lower-cased summary is one of the configured names. */
  predicate Selected(item: CalendarItem, calendars: seq<string>) {
    Lower(item.summary) in calendars
  }

  /** `[ci for ci in calendar_items if ci["summary"].lower() in calendars]` */
  function SelectCalendars(items: seq<CalendarItem>, calendars: seq<string>): seq<CalendarItem> {
    Filter(items, ci => Selected(ci, calendars))
  }

  /** `_parse_event_data`: a timed start gives a "time" event, otherwise the
      start day gives a "day" event; the end is its time, or else its day.
      A start or end with neither, or a missing summary, raises. */
  function ParseEvent(e: RawEvent): (r: Result<Event>)
    ensures r.Ok? <==> (e.start.dateTime.Some? || e.start.date.Some?)
                       && (e.end.dateTime.Some? || e.end.date.Some?) && e.summary.Some?
    ensures r.Ok? ==> (r.value.kind == Timed <==> e.start.dateTime.Some?)
    ensures r.Ok? && e.start.dateTime.Some? ==> r.value.start == e.start.dateTime.value
    ensures r.Ok? && e.start.dateTime.None? ==> r.value.start == e.start.date.value
    ensures r.Ok? && e.end.dateTime.Some? ==> r.value.end == e.end.dateTime.value
    ensures r.Ok? && e.end.dateTime.None? ==> r.value.end == e.end.date.value
    ensures r.Ok? ==> r.value.summary == e.summary.value && r.value.location == e.location
    ensures r.Err? ==> r.error.RuntimeFault?
  {
    var (start, kind) := if e.start.dateTime.Some? then (e.start.dateTime, Timed) else (e.start.date, AllDay);
    var end := if e.end.dateTime.Some? then e.end.dateTime else e.end.date;
    if start.None? then Err(RuntimeFault("start"))
    else if end.None? then Err(RuntimeFault("end"))
    else if e.summary.None? then Err(RuntimeFault("summary"))
    else Ok(Event(e.summary.value, start.value, end.value, kind, e.location))
  }

  /** The events of one calendar, parsed in the order the API lists them. */
  function ParseEvents(raw: seq<RawEvent>): (r: Result<seq<Event>>)
    ensures r.Ok? <==> forall i :: 0 <= i < |raw| ==> ParseEvent(raw[i]).Ok?
    ensures r.Ok? ==> |r.value| == |raw|
    ensures r.Ok? ==> forall i :: 0 <= i < |raw| ==> r.value[i] == ParseEvent(raw[i]).value
    ensures r.Err? ==> r.error.RuntimeFault?
  {
    if |raw| == 0 then Ok([])
    else
      assert forall i :: 0 < i < |raw| ==> raw[i] == raw[1..][i - 1];
      var e :- ParseEvent(raw[0]);
      var rest :- ParseEvents(raw[1..]);
      Ok([e] + rest)
  }

  /** One pass of the loop: request the calendar's events, then parse them. */
  function FetchEvents(c: CalendarItem, eventsFor: EventsRequest): Result<seq<Event>>
  {
    var raw :- eventsFor(c.id);
    ParseEvents(raw)
  }

  /** The loop over the selected calendars: their events, calendar after
      calendar, in the order they were listed. */
  function GatherEvents(cals: seq<CalendarItem>, eventsFor: EventsRequest): Result<seq<Event>>
  {
    ConcatMap(cals, (c: CalendarItem) => FetchEvents(c, eventsFor))
  }

  // ---------------------------------------------------------------------
  // Sorting by start

  predicate SortedByStart(xs: seq<Event>) {
    forall i, j :: 0 <= i < j < |xs| ==> xs[i].start <= xs[j].start
  }

  /** Insert `x` into a list sorted by start, before the first later-or-equal
      start, so that `x` precedes the events it ties with. */
  function InsertByStart(x: Event, xs: seq<Event>): (r: seq<Event>)
    ensures multiset(r) == multiset(xs) + multiset{x}
    ensures |r| == |xs| + 1
    ensures r[0] == x || (|xs| > 0 && r[0] == xs[0])
  {
    if |xs| == 0 || x.start <= xs[0].start then [x] + xs
    else
      assert xs == [xs[0]] + xs[1..];
      [xs[0]] + InsertByStart(x, xs[1..])
  }

  /** Inserting into a sorted list keeps it sorted. */
  lemma {:induction false} InsertKeepsSorted(x: Event, xs: seq<Event>)
    requires SortedByStart(xs)
    ensures SortedByStart(InsertByStart(x, xs))
    decreases |xs|
  {
    if |xs| == 0 || x.start <= xs[0].start {
      ConsSorted(x, xs);
    } else {
      var tail := xs[1..];
      assert SortedByStart(tail) by {
        forall i, j | 0 <= i < j < |tail| ensures tail[i].start <= tail[j].start {
          assert tail[i] == xs[i + 1] && tail[j] == xs[j + 1];
        }
      }
      InsertKeepsSorted(x, tail);
      var rest := InsertByStart(x, tail);
      assert xs[0].start <= rest[0].start by {
        if |tail| > 0 { assert xs[0].start <= xs[1].start; }
      }
      ConsSorted(xs[0], rest);
    }
  }

  /** A sorted list stays sorted with an earliest-or-equal event in front. */
  lemma ConsSorted(y: Event, xs: seq<Event>)
    requires SortedByStart(xs) && (|xs| > 0 ==> y.start <= xs[0].start)
    ensures SortedByStart([y] + xs)
  {
    var r := [y] + xs;
    forall i, j | 0 <= i < j < |r| ensures r[i].start <= r[j].start {
      if i == 0 {
        assert r[j] == xs[j - 1];
        assert xs[0].start <= xs[j - 1].start;
      } else {
        assert r[i] == xs[i - 1] && r[j] == xs[j - 1];
      }
    }
  }

  /** `sorted(events, key=lambda k: k["start"])`, by insertion. */
  function SortByStart(xs: seq<Event>): (r: seq<Event>)
    ensures SortedByStart(r)
    ensures multiset(r) == multiset(xs)
    ensures |r| == |xs|
  {
    if |xs| == 0 then []
    else
      assert xs == [xs[0]] + xs[1..];
      var rest := SortByStart(xs[1..]);
      InsertKeepsSorted(xs[0], rest);
      InsertByStart(xs[0], rest)
  }

  /** The events that start at `t`, in list order. */
  function StartingAt(xs: seq<Event>, t: int): (r: seq<Event>)
    ensures forall e :: e in r <==> e in xs && e.start == t
  {
    if |xs| == 0 then [] else (if xs[0].start == t then [xs[0]] else []) + StartingAt(xs[1..], t)
  }

  /** Inserting keeps the order among events with equal start: `x` comes
      first among them, as it came first in the input. */
  lemma {:induction false} InsertKeepsTies(x: Event, xs: seq<Event>, t: int)
    ensures StartingAt(InsertByStart(x, xs), t) == StartingAt([x] + xs, t)
    decreases |xs|
  {
    if |xs| > 0 && xs[0].start < x.start {
      var tail := xs[1..];
      var rest := InsertByStart(x, tail);
      InsertKeepsTies(x, tail, t);
      assert InsertByStart(x, xs) == [xs[0]] + rest;
      assert xs == [xs[0]] + tail;
      StartingAtCons(xs[0], rest, t);
      StartingAtCons(x, tail, t);
      StartingAtCons(xs[0], tail, t);
      StartingAtCons(x, xs, t);
      if x.start == t {
        // xs[0] starts strictly before x, so it is not among the events at t
        assert StartingAt(InsertByStart(x, xs), t) == StartingAt(rest, t);
        assert StartingAt(xs, t) == StartingAt(tail, t);
      } else {
        assert StartingAt([x] + xs, t) == StartingAt(xs, t);
        assert StartingAt(rest, t) == StartingAt(tail, t);
      }
    }
  }

  /** The events starting at `t` of a list with `y` in front. */
  lemma StartingAtCons(y: Event, ys: seq<Event>, t: int)
    ensures StartingAt([y] + ys, t) == (if y.start == t then [y] else []) + StartingAt(ys, t)
  {
    assert ([y] + ys)[0] == y;
    assert ([y] + ys)[1..] == ys;
  }

  /** The sort is stable: events with the same start keep their order. */
  lemma {:induction false} SortIsStable(xs: seq<Event>, t: int)
    ensures StartingAt(SortByStart(xs), t) == StartingAt(xs, t)
    decreases |xs|
  {
    if |xs| > 0 {
      var sortedRest := SortByStart(xs[1..]);
      SortIsStable(xs[1..], t);
      InsertKeepsTies(xs[0], sortedRest, t);
      assert ([xs[0]] + sortedRest)[1..] == sortedRest;
    }
  }

  // ---------------------------------------------------------------------
  // The crawl

  /** The stored form of one event. */
  function EventJson(e: Event): Json {
    JObj(map["summary" := JStr(e.summary), "start" := JInt(e.start), "end" := JInt(e.end),
             "type" := JStr(if e.kind == Timed then "time" else "day"),
             "location" := if e.location.Some? then JStr(e.location.value) else JNull])
  }

  /** `{"_timestamp": now, "events": events}` */
  function CalendarRecord(now: int, events: seq<Event>): Json {
    JObj(map["_timestamp" := JInt(now),
             "events" := JArr(seq(|events|, i requires 0 <= i < |events| => EventJson(events[i])))])
  }

  /** The events the crawl stores: those of the selected calendars, sorted by
      start and cut to `max_items`. */
  function CalendarEvents(calendars: seq<string>, maxItems: int, listing: CalendarListing,
                          eventsFor: EventsRequest): (r: Result<seq<Event>>)
    ensures listing.RefreshRejected? ==> r == Err(DataError(PERMISSION_MESSAGE))
    ensures listing.ListingFailed? ==> r == Err(listing.error)
    ensures listing == Listed(None) ==> r == Err(RuntimeFault("items"))
    ensures (listing.Listed? && listing.items.Some? && SelectCalendars(listing.items.value, calendars) == [])
              ==> r == Err(DataError(NoMatchMessage(calendars)))
    ensures (listing.Listed? && listing.items.Some? && SelectCalendars(listing.items.value, calendars) != [])
              ==> (r.Ok? <==> GatherEvents(SelectCalendars(listing.items.value, calendars), eventsFor).Ok?)
    ensures (listing.Listed? && listing.items.Some? && SelectCalendars(listing.items.value, calendars) != []
             && GatherEvents(SelectCalendars(listing.items.value, calendars), eventsFor).Err?)
              ==> r == Err(GatherEvents(SelectCalendars(listing.items.value, calendars), eventsFor).error)
    ensures r.Ok? ==>
              && listing.Listed? && listing.items.Some?
              && SelectCalendars(listing.items.value, calendars) != []
              && GatherEvents(SelectCalendars(listing.items.value, calendars), eventsFor).Ok?
              && r.value == TakePrefix(SortByStart(GatherEvents(SelectCalendars(listing.items.value, calendars), eventsFor).value), maxItems)
  {
    match listing
    case RefreshRejected => Err(DataError(PERMISSION_MESSAGE))
    case ListingFailed(e) => Err(e)
    case Listed(None) => Err(RuntimeFault("items"))
    case Listed(Some(items)) =>
      var selected := SelectCalendars(items, calendars);
      if selected == [] then Err(DataError(NoMatchMessage(calendars)))
      else
        var all :- GatherEvents(selected, eventsFor);
        Ok(TakePrefix(SortByStart(all), maxItems))
  }

  /** The calendar `crawl` as intended (see `CrawlAsWritten`). A connection
      error while getting credentials and missing credentials both become
      data errors; on success the events are stored once, under the
      module's key. */
  function Crawl(moduleId: string, calendars: seq<string>, maxItems: int,
                 credentials: Result<Option<GoogleAuth.Credentials>>, listing: CalendarListing,
                 eventsFor: EventsRequest, now: int, store: Store): (r: Result<Store>)
    ensures credentials == Err(ConnectionFailure) ==> r == Err(DataError(CONNECT_MESSAGE))
    ensures (credentials.Err? && credentials.error != ConnectionFailure) ==> r == Err(credentials.error)
    ensures credentials == Ok(None) ==> r == Err(DataError(AUTH_MESSAGE))
    ensures (credentials.Ok? && credentials.value.Some?)
              ==> (r.Ok? <==> CalendarEvents(calendars, maxItems, listing, eventsFor).Ok?)
    ensures (credentials.Ok? && credentials.value.Some? && CalendarEvents(calendars, maxItems, listing, eventsFor).Err?)
              ==> r == Err(CalendarEvents(calendars, maxItems, listing, eventsFor).error)
    ensures r.Ok? ==> r.value == StoreObject(store, ModuleDataKey(OBJECT_KEY, moduleId),
                                             CalendarRecord(now, CalendarEvents(calendars, maxItems, listing, eventsFor).value))
  {
    match credentials
    case Err(ConnectionFailure) => Err(DataError(CONNECT_MESSAGE))
    case Err(e) => Err(e)
    case Ok(None) => Err(DataError(AUTH_MESSAGE))
    case Ok(Some(_)) => StoreEvents(moduleId, calendars, maxItems, listing, eventsFor, now, store)
  }

  /** The calendar `crawl` as its exception handler is written: the handler
      names the builtin `ConnectionError`, which requests' connection error
      does not derive from, so a lost connection escapes the crawl unconverted
      instead of becoming the "Unable to connect" data error. Every other
      input behaves as in `Crawl`. */
  function CrawlAsWritten(moduleId: string, calendars: seq<string>, maxItems: int,
                          credentials: Result<Option<GoogleAuth.Credentials>>, listing: CalendarListing,
                          eventsFor: EventsRequest, now: int, store: Store): (r: Result<Store>)
    ensures credentials.Err? ==> r == Err(credentials.error)
    ensures credentials != Err(ConnectionFailure) ==>
              r == Crawl(moduleId, calendars, maxItems, credentials, listing, eventsFor, now, store)
  {
    match credentials
    case Err(e) => Err(e)
    case Ok(None) => Err(DataError(AUTH_MESSAGE))
    case Ok(Some(_)) => StoreEvents(moduleId, calendars, maxItems, listing, eventsFor, now, store)
  }

  /** What both versions do once credentials are in hand: fetch, sort and
      cut the events, then store them under the module's key. */
  function StoreEvents(moduleId: string, calendars: seq<string>, maxItems: int, listing: CalendarListing,
                       eventsFor: EventsRequest, now: int, store: Store): Result<Store>
  {
    var events :- CalendarEvents(calendars, maxItems, listing, eventsFor);
    Ok(StoreObject(store, ModuleDataKey(OBJECT_KEY, moduleId), CalendarRecord(now, events)))
  }

  // ---------------------------------------------------------------------
  // Properties

  /** The two versions part on exactly one input: a lost connection, which
      the code as written lets escape and the intended crawl reports as
      "Unable to connect to Google API". */
  lemma ConnectionFailureEscapesAsWritten(moduleId: string, calendars: seq<string>, maxItems: int,
                                          listing: CalendarListing, eventsFor: EventsRequest,
                                          now: int, store: Store)
    ensures CrawlAsWritten(moduleId, calendars, maxItems, Err(ConnectionFailure), listing, eventsFor, now, store)
            == Err(ConnectionFailure)
    ensures Crawl(moduleId, calendars, maxItems, Err(ConnectionFailure), listing, eventsFor, now, store)
            == Err(DataError(CONNECT_MESSAGE))
  { }

  /** In the intended crawl a raw connection error comes only from the
      calendar-list request or from an events request of a selected
      calendar, never from the credential step; a connection error of the
      calendar-list request does escape it. */
  lemma ConnectionFailureOnlyFromRequests(moduleId: string, calendars: seq<string>, maxItems: int,
                                          credentials: Result<Option<GoogleAuth.Credentials>>, listing: CalendarListing,
                                          eventsFor: EventsRequest, now: int, store: Store)
    ensures Crawl(moduleId, calendars, maxItems, credentials, listing, eventsFor, now, store) == Err(ConnectionFailure) ==>
              && credentials.Ok? && credentials.value.Some?
              && (|| listing == ListingFailed(ConnectionFailure)
                  || (&& listing.Listed? && listing.items.Some?
                      && exists c :: c in SelectCalendars(listing.items.value, calendars) && eventsFor(c.id) == Err(ConnectionFailure)))
    ensures (credentials.Ok? && credentials.value.Some? && listing == ListingFailed(ConnectionFailure)) ==>
              Crawl(moduleId, calendars, maxItems, credentials, listing, eventsFor, now, store) == Err(ConnectionFailure)
  {
    if listing.Listed? && listing.items.Some? {
      var selected := SelectCalendars(listing.items.value, calendars);
      var f := (c: CalendarItem) => FetchEvents(c, eventsFor);
      ConcatMapError(selected, f);
      if ConcatMap(selected, f).Err? {
        var i :| 0 <= i < |selected| && f(selected[i]).Err? && ConcatMap(selected, f).error == f(selected[i]).error;
        assert f(selected[i]) == FetchEvents(selected[i], eventsFor);
        assert selected[i] in selected;
      }
    }
  }

  /** The first `k` events of a sorted list are sorted, and none starts
      after an event left out. */
  lemma SortedPrefixIsEarliest(sorted: seq<Event>, k: nat)
    requires SortedByStart(sorted) && k <= |sorted|
    ensures SortedByStart(sorted[..k])
    ensures multiset(sorted[..k]) + multiset(sorted[k..]) == multiset(sorted)
    ensures forall i, j :: 0 <= i < k && 0 <= j < |sorted| - k ==> sorted[..k][i].start <= sorted[k..][j].start
  {
    assert sorted == sorted[..k] + sorted[k..];
  }

  /** The stored events are sorted by start, at most `max_items` of them,
      and the earliest of everything gathered from the selected calendars:
      every event left out starts no earlier than every stored one. */
  lemma StoredEventsAreEarliestSorted(calendars: seq<string>, maxItems: int, listing: CalendarListing,
                                      eventsFor: EventsRequest)
    requires CalendarEvents(calendars, maxItems, listing, eventsFor).Ok?
    ensures var stored := CalendarEvents(calendars, maxItems, listing, eventsFor).value;
            var all := GatherEvents(SelectCalendars(listing.items.value, calendars), eventsFor).value;
            var dropped := SortByStart(all)[|stored|..];
            && SortedByStart(stored)
            && |stored| == SliceLength(|all|, maxItems)
            && (maxItems >= 0 ==> |stored| <= maxItems)
            && multiset(stored) + multiset(dropped) == multiset(all)
            && (forall i, j :: 0 <= i < |stored| && 0 <= j < |dropped| ==> stored[i].start <= dropped[j].start)
  {
    var all := GatherEvents(SelectCalendars(listing.items.value, calendars), eventsFor).value;
    var sorted := SortByStart(all);
    var k := SliceLength(|all|, maxItems);
    assert CalendarEvents(calendars, maxItems, listing, eventsFor).value == sorted[..k];
    SortedPrefixIsEarliest(sorted, k);
  }

  /** Calendars are matched case-insensitively: a configured lower-case name
      selects the calendar whatever the case of its summary. */
  lemma SelectIgnoresCase(items: seq<CalendarItem>, calendars: seq<string>, ci: CalendarItem)
    ensures ci in SelectCalendars(items, calendars) <==> ci in items && Lower(ci.summary) in calendars
  {
    FilterMembers(items, c => Selected(c, calendars), ci);
  }

  /** The selected calendars keep the order of the calendar list. */
  lemma SelectKeepsOrder(a: seq<CalendarItem>, b: seq<CalendarItem>, calendars: seq<string>)
    ensures SelectCalendars(a + b, calendars) == SelectCalendars(a, calendars) + SelectCalendars(b, calendars)
  {
    FilterAppend(a, b, c => Selected(c, calendars));
  }

  /** No selected calendar is an error, and nothing is stored. */
  lemma NoMatchingCalendarFails(moduleId: string, calendars: seq<string>, maxItems: int,
                                creds: GoogleAuth.Credentials, items: seq<CalendarItem>,
                                eventsFor: EventsRequest, now: int, store: Store)
    requires forall i :: 0 <= i < |items| ==> Lower(items[i].summary) !in calendars
    ensures Crawl(moduleId, calendars, maxItems, Ok(Some(creds)), Listed(Some(items)), eventsFor, now, store)
         == Err(DataError(NoMatchMessage(calendars)))
  {
    FilterEmpty(items, c => Selected(c, calendars));
  }

  /** A whole-day event keeps its day and is typed "day"; a timed event is
      typed "time" even when it also has a day. */
  lemma EventKinds(summary: string, t: int, d: int, end: int)
    ensures ParseEvent(RawEvent(Some(summary), EventTime(None, Some(d)), EventTime(None, Some(end)), None))
         == Ok(Event(summary, d, end, AllDay, None))
    ensures ParseEvent(RawEvent(Some(summary), EventTime(Some(t), Some(d)), EventTime(Some(end), None), None))
         == Ok(Event(summary, t, end, Timed, None))
  {
  }

  /** The events gathered from a list of calendars are those of the first
      calendars followed by those of the rest. */
  lemma GatherEventsAppend(a: seq<CalendarItem>, b: seq<CalendarItem>, eventsFor: EventsRequest)
    requires GatherEvents(a, eventsFor).Ok? && GatherEvents(b, eventsFor).Ok?
    ensures GatherEvents(a + b, eventsFor) == Ok(GatherEvents(a, eventsFor).value + GatherEvents(b, eventsFor).value)
  {
    ConcatMapAppend(a, b, (c: CalendarItem) => FetchEvents(c, eventsFor));
  }

  /** Gathering succeeds exactly when every selected calendar's events
      request answers and its events parse. */
  lemma GatherEventsOk(cals: seq<CalendarItem>, eventsFor: EventsRequest)
    ensures GatherEvents(cals, eventsFor).Ok? <==>
              forall i :: 0 <= i < |cals| ==> eventsFor(cals[i].id).Ok? && ParseEvents(eventsFor(cals[i].id).value).Ok?
  {
    ConcatMapOk(cals, (c: CalendarItem) => FetchEvents(c, eventsFor));
  }
}

=== FILE: crawl_main.dfy ===
/** The `crawl` command of the crawler CLI (flirror/crawler/main.py): pick
    the configured modules to run, look up a crawler for each module's type,
    and register one job per module with the scheduler, then run the jobs
    once or periodically. The registered crawlers (`app.crawlers`) are an
    input set of type names; the scheduler is represented by the list of
    `add_job` calls it receives and the run mode. */
module CrawlMain {
  import opened Errors
  import opened Database
  import PyList

  const DEFAULT_INTERVAL: string := "5m"

  const NO_MODULES_MESSAGE: string := "No modules specified in config file. Nothing to run."

  /** One entry of the MODULES configuration list; absent keys are None. */
  datatype ModuleConfig = ModuleConfig(
    id: Option<string>,
    moduleType: Option<string>,
    config: Option<Json>,
    crawler: Option<Json>)

  /** One `add_job(func, crawler_id, interval)` call: the crawler type with
      the keyword arguments bound into `func`, the id and the interval. */
  datatype AddJobCall = AddJobCall(crawlerType: string, crawlerId: Option<string>, params: map<string, Json>, interval: Json)

  /** `--periodic` starts the scheduler loop; otherwise every job runs once. */
  datatype Mode = Periodic | Batch

  datatype CrawlPlan = CrawlPlan(calls: seq<AddJobCall>, mode: Mode)

  /** `','.join(ids)` */
  function JoinComma(ids: seq<string>): (r: string)
    ensures |ids| == 1 ==> r == ids[0]
  {
    if |ids| == 0 then ""
    else if |ids| == 1 then ids[0]
    else ids[0] + "," + JoinComma(ids[1..])
  }

  function NotFoundMessage(ids: seq<string>): string {
    "None of the specified modules '" + JoinComma(ids) + "' could be found in the configuration file. Nothing to run."
  }

  /** True iff the config's id is among the requested ids. */
  predicate Requested(c: ModuleConfig, ids: seq<string>) {
    c.id.Some? && c.id.value in ids
  }

  /** True iff every config carries an id. */
  predicate AllIdentified(configs: seq<ModuleConfig>) {
    forall i :: 0 <= i < |configs| ==> configs[i].id.Some?
  }

  /** True iff no config carries a requested id. */
  predicate NoneRequested(configs: seq<ModuleConfig>, ids: seq<string>) {
    forall i :: 0 <= i < |configs| ==> !Requested(configs[i], ids)
  }

  /** `[m for m in config_modules if m["id"] in module]`: the configs with a
      requested id, in config order; a config without an id raises KeyError. */
  function SelectByIds(configs: seq<ModuleConfig>, ids: seq<string>): (r: Result<seq<ModuleConfig>>)
    ensures r.Ok? <==> AllIdentified(configs)
    ensures r.Err? ==> r.error == RuntimeFault("id")
    ensures r.Ok? ==> (r.value == [] <==> NoneRequested(configs, ids))
  {
    if AllIdentified(configs) then
      PyList.FilterEmpty(configs, c => Requested(c, ids));
      Ok(PyList.Filter(configs, c => Requested(c, ids)))
    else Err(RuntimeFault("id"))
  }

  /** The configs a crawl covers: the requested ones, or all of them without
      `--module`; an empty choice is a usage error. */
  function Selection(configs: seq<ModuleConfig>, ids: seq<string>): (r: Result<seq<ModuleConfig>>)
    ensures |ids| == 0 && |configs| == 0 ==> r == Err(ConfigError(NO_MODULES_MESSAGE))
    ensures |ids| == 0 && |configs| > 0 ==> r == Ok(configs)
    ensures |ids| > 0 && SelectByIds(configs, ids).Ok? ==>
              r == (if SelectByIds(configs, ids).value == [] then Err(ConfigError(NotFoundMessage(ids)))
                    else SelectByIds(configs, ids))
    ensures r.Ok? ==> r.value != []
  {
    if |ids| > 0 then
      var selected :- SelectByIds(configs, ids);
      if selected == [] then Err(ConfigError(NotFoundMessage(ids))) else Ok(selected)
    else if configs == [] then Err(ConfigError(NO_MODULES_MESSAGE))
    else Ok(configs)
  }

  /** True iff a crawler is registered for the config's type. */
  predicate HasKnownType(c: ModuleConfig, known: set<string>) {
    c.moduleType.Some? && c.moduleType.value in known
  }

  /** `crawler_config.get("crawler", {}).get("interval", "5m")`; a crawler
      entry that is not a mapping has no `get`. */
  function IntervalOf(c: ModuleConfig): (r: Result<Json>)
    ensures c.crawler.None? ==> r == Ok(JStr(DEFAULT_INTERVAL))
    ensures (c.crawler.Some? && c.crawler.value.JObj? && "interval" !in c.crawler.value.fields)
              ==> r == Ok(JStr(DEFAULT_INTERVAL))
    ensures (c.crawler.Some? && c.crawler.value.JObj? && "interval" in c.crawler.value.fields)
              ==> r == Ok(c.crawler.value.fields["interval"])
    ensures r.Err? <==> c.crawler.Some? && !c.crawler.value.JObj?
  {
    match c.crawler
    case None => Ok(JStr(DEFAULT_INTERVAL))
    case Some(JObj(fields)) => Ok(if "interval" in fields then fields["interval"] else JStr(DEFAULT_INTERVAL))
    case Some(_) => Err(RuntimeFault("crawler"))
  }

  /** True iff `**config` can be bound next to `crawler_id=` and `app=`. */
  predicate BindableParams(c: ModuleConfig) {
    c.config.Some? && c.config.value.JObj?
    && "crawler_id" !in c.config.value.fields && "app" !in c.config.value.fields
  }

  /** The `add_job` call for one config with a registered crawler type:
      `crawler_config["config"]` must exist and be a mapping that does not
      repeat the bound arguments. */
  function JobCall(c: ModuleConfig, crawlerType: string): (r: Result<AddJobCall>)
    ensures r.Ok? <==> BindableParams(c) && IntervalOf(c).Ok?
    ensures r.Ok? ==> r.value == AddJobCall(crawlerType, c.id, c.config.value.fields, IntervalOf(c).value)
  {
    if c.config.None? then Err(RuntimeFault("config"))
    else if !BindableParams(c) then Err(RuntimeFault("config"))
    else
      var interval :- IntervalOf(c);
      Ok(AddJobCall(crawlerType, c.id, c.config.value.fields, interval))
  }

  /** True iff the config is skipped or yields its `add_job` call. */
  predicate SkippedOrCallable(c: ModuleConfig, known: set<string>) {
    HasKnownType(c, known) ==> JobCall(c, c.moduleType.value).Ok?
  }

  /** The loop over the selected configs: unknown types are skipped, every
      other config adds its job, and the first fault ends the crawl. */
  function PlanJobs(configs: seq<ModuleConfig>, known: set<string>): (r: Result<seq<AddJobCall>>)
    ensures r.Ok? <==> forall i :: 0 <= i < |configs| ==> SkippedOrCallable(configs[i], known)
    ensures r.Ok? ==> |r.value| <= |configs|
  {
    if |configs| == 0 then Ok([])
    else
      var c := configs[0];
      assert forall i :: 1 <= i < |configs| ==> configs[i] == configs[1..][i - 1];
      if !HasKnownType(c, known) then PlanJobs(configs[1..], known)
      else
        match JobCall(c, c.moduleType.value)
        case Err(e) => Err(e)
        case Ok(call) =>
          match PlanJobs(configs[1..], known)
          case Err(e) => Err(e)
          case Ok(rest) => Ok([call] + rest)
  }

  /** `crawl`: select the configs, register their jobs, and choose the run mode. */
  function Crawl(configs: seq<ModuleConfig>, ids: seq<string>, periodic: bool, known: set<string>): (r: Result<CrawlPlan>)
    ensures Selection(configs, ids).Err? ==> r == Err(Selection(configs, ids).error)
    ensures Selection(configs, ids).Ok? ==>
              (r.Ok? <==> PlanJobs(Selection(configs, ids).value, known).Ok?)
    ensures r.Ok? ==> r.value.calls == PlanJobs(Selection(configs, ids).value, known).value
    ensures r.Ok? ==> (r.value.mode == Periodic <==> periodic)
  {
    var selected :- Selection(configs, ids);
    var calls :- PlanJobs(selected, known);
    Ok(CrawlPlan(calls, if periodic then Periodic else Batch))
  }

  // ---------------------------------------------------------------------
  // Selection

  /** The id filter keeps config order: selecting from a concatenation is
      the concatenation of the selections. */
  lemma SelectByIdsAppend(a: seq<ModuleConfig>, b: seq<ModuleConfig>, ids: seq<string>)
    requires SelectByIds(a, ids).Ok? && SelectByIds(b, ids).Ok?
    ensures SelectByIds(a + b, ids) == Ok(SelectByIds(a, ids).value + SelectByIds(b, ids).value)
  {
    assert AllIdentified(a + b) by {
      forall i | 0 <= i < |a + b| ensures (a + b)[i].id.Some? {
        if i < |a| { assert (a + b)[i] == a[i]; } else { assert (a + b)[i] == b[i - |a|]; }
      }
    }
    PyList.FilterAppend(a, b, c => Requested(c, ids));
  }

  /** The selection holds exactly the configs whose id was requested. */
  lemma SelectByIdsMembers(configs: seq<ModuleConfig>, ids: seq<string>, c: ModuleConfig)
    requires SelectByIds(configs, ids).Ok?
    ensures c in SelectByIds(configs, ids).value <==> c in configs && Requested(c, ids)
  {
    PyList.FilterMembers(configs, x => Requested(x, ids), c);
  }

  /** A single config is kept exactly when its id was requested. */
  lemma SelectByIdsSingle(c: ModuleConfig, ids: seq<string>)
    requires c.id.Some?
    ensures SelectByIds([c], ids) == Ok(if c.id.value in ids then [c] else [])
  {
    assert [c][1..] == [];
    assert PyList.Filter([c][1..], x => Requested(x, ids)) == [];
    assert [c] + [] == [c];
  }

  /** Requesting ids that no config carries fails with the not-found usage
      error, which names the requested ids. */
  lemma UnknownIdsFail(configs: seq<ModuleConfig>, ids: seq<string>, periodic: bool, known: set<string>)
    requires |ids| > 0
    requires forall i :: 0 <= i < |configs| ==> configs[i].id.Some? && configs[i].id.value !in ids
    ensures Crawl(configs, ids, periodic, known) == Err(ConfigError(NotFoundMessage(ids)))
  {
    assert AllIdentified(configs) && NoneRequested(configs, ids);
  }

  /** The test's unknown module: `--module unknown` names it in the message. */
  lemma UnknownModuleMessage()
    ensures NotFoundMessage(["unknown"])
         == "None of the specified modules '" + "unknown" + "' could be found in the configuration file. Nothing to run."
  {
  }

  /** An empty configuration with no requested ids fails, whatever the mode. */
  lemma EmptyConfigFails(periodic: bool, known: set<string>)
    ensures Crawl([], [], periodic, known) == Err(ConfigError(NO_MODULES_MESSAGE))
  {
  }

  // ---------------------------------------------------------------------
  // Job registration

  /** Registration is compositional: the jobs of a concatenation are the
      jobs of each part, in order. */
  lemma {:induction false} PlanJobsAppend(a: seq<ModuleConfig>, b: seq<ModuleConfig>, known: set<string>)
    requires PlanJobs(a, known).Ok? && PlanJobs(b, known).Ok?
    ensures PlanJobs(a + b, known) == Ok(PlanJobs(a, known).value + PlanJobs(b, known).value)
    decreases |a|
  {
    if |a| == 0 {
      assert a + b == b;
      assert PlanJobs(a, known).value == [];
      assert [] + PlanJobs(b, known).value == PlanJobs(b, known).value;
    } else {
      assert (a + b)[0] == a[0];
      assert (a + b)[1..] == a[1..] + b;
      forall i | 0 <= i < |a| - 1 ensures SkippedOrCallable(a[1..][i], known) {
        assert a[1..][i] == a[i + 1];
      }
      PlanJobsAppend(a[1..], b, known);
      var head := if HasKnownType(a[0], known) then [JobCall(a[0], a[0].moduleType.value).value] else [];
      var restA := PlanJobs(a[1..], known).value;
      var restB := PlanJobs(b, known).value;
      assert PlanJobs(a, known).value == head + restA;
      assert PlanJobs(a + b, known).value == head + (restA + restB);
      assert head + (restA + restB) == (head + restA) + restB;
    }
  }

  /** A config whose type has no crawler adds nothing. */
  lemma UnknownTypeIsSkipped(c: ModuleConfig, known: set<string>)
    requires !HasKnownType(c, known)
    ensures PlanJobs([c], known) == Ok([])
  {
    assert [c][1..] == [];
  }

  /** A config with a registered type adds exactly its own call. */
  lemma KnownTypeAddsOneJob(c: ModuleConfig, known: set<string>)
    requires HasKnownType(c, known) && JobCall(c, c.moduleType.value).Ok?
    ensures PlanJobs([c], known) == Ok([JobCall(c, c.moduleType.value).value])
  {
    assert [c][1..] == [];
    assert PlanJobs([c][1..], known) == Ok([]);
    assert [JobCall(c, c.moduleType.value).value] + [] == [JobCall(c, c.moduleType.value).value];
  }

  /** A skipped config does not stop the ones after it. */
  lemma SkipThenContinue(c: ModuleConfig, rest: seq<ModuleConfig>, known: set<string>)
    requires !HasKnownType(c, known)
    ensures PlanJobs([c] + rest, known) == PlanJobs(rest, known)
  {
    assert ([c] + rest)[1..] == rest;
  }

  /** When every config has a registered type and usable parameters, there
      is one job per config (ten configs give ten `add_job` calls). */
  lemma {:induction false} OneJobPerKnownConfig(configs: seq<ModuleConfig>, known: set<string>)
    requires forall i :: 0 <= i < |configs| ==>
               HasKnownType(configs[i], known) && JobCall(configs[i], configs[i].moduleType.value).Ok?
    ensures PlanJobs(configs, known).Ok?
    ensures |PlanJobs(configs, known).value| == |configs|
    ensures forall i :: 0 <= i < |configs| ==>
              PlanJobs(configs, known).value[i] == JobCall(configs[i], configs[i].moduleType.value).value
    decreases |configs|
  {
    if |configs| > 0 {
      var tail := configs[1..];
      assert forall i :: 1 <= i < |configs| ==> configs[i] == tail[i - 1];
      OneJobPerKnownConfig(tail, known);
      var r := PlanJobs(configs, known).value;
      assert r == [JobCall(configs[0], configs[0].moduleType.value).value] + PlanJobs(tail, known).value;
      forall i | 1 <= i < |configs|
        ensures r[i] == JobCall(configs[i], configs[i].moduleType.value).value
      {
        assert r[i] == PlanJobs(tail, known).value[i - 1];
      }
    }
  }

  /** Without a `crawler.interval` the job gets the five-minute default. */
  lemma DefaultInterval(c: ModuleConfig, crawlerType: string)
    requires BindableParams(c)
    requires c.crawler.None? || (c.crawler.value.JObj? && "interval" !in c.crawler.value.fields)
    ensures JobCall(c, crawlerType) == Ok(AddJobCall(crawlerType, c.id, c.config.value.fields, JStr("5m")))
  {
  }

  /** Without `--module` every configured module is planned, and the mode
      follows `--periodic`. */
  lemma AllModulesWithoutIds(configs: seq<ModuleConfig>, periodic: bool, known: set<string>)
    requires |configs| > 0 && PlanJobs(configs, known).Ok?
    ensures Crawl(configs, [], periodic, known)
         == Ok(CrawlPlan(PlanJobs(configs, known).value, if periodic then Periodic else Batch))
  {
  }
}

=== FILE: database.dfy ===
/** The FlirrorObject key/value table of flirror/database.py: a primary-key
    string mapped to a JSON value, written by upsert and read by key. */
module Database {
  import opened Errors

  /** A JSON value as Pony's `Json` column holds it. Numbers are integers:
      timestamps are modelled as whole seconds. */
  datatype Json =
    | JNull
    | JBool(b: bool)
    | JInt(i: int)
    | JStr(s: string)
    | JArr(items: seq<Json>)
    | JObj(fields: map<string, Json>)

  /** The FlirrorObject table: at most one record per key. */
  type Store = map<string, Json>

  /** `store_object_by_key`: update the record with this key if there is one,
      otherwise create it. */
  function StoreObject(store: Store, key: string, value: Json): (r: Store)
    ensures key in r && r[key] == value
    ensures r.Keys == store.Keys + {key}
    ensures forall k :: k in store && k != key ==> r[k] == store[k]
  {
    store[key := value]
  }

  /** `get_object_by_key`: the stored value, or None when no record has the key. */
  function GetObject(store: Store, key: string): (r: Option<Json>)
    ensures r.Some? <==> key in store
    ensures r.Some? ==> r.value == store[key]
  {
    if key in store then Some(store[key]) else None
  }

  /** Reading back a key right after storing under it yields the stored value. */
  lemma StoreThenGet(store: Store, key: string, value: Json)
    ensures GetObject(StoreObject(store, key, value), key) == Some(value)
  {
  }

  /** Storing under an existing key replaces the value in place: the number
      of records stays the same. */
  lemma StoreExistingKeepsCount(store: Store, key: string, value: Json)
    requires key in store
    ensures |StoreObject(store, key, value)| == |store|
  {
    var r := StoreObject(store, key, value);
    assert r.Keys == store.Keys;
    assert |r| == |r.Keys| == |store.Keys| == |store|;
  }

  /** Storing under a new key creates exactly one record. */
  lemma StoreNewAddsOne(store: Store, key: string, value: Json)
    requires key !in store
    ensures |StoreObject(store, key, value)| == |store| + 1
  {
    var r := StoreObject(store, key, value);
    assert r.Keys == store.Keys + {key};
    assert |r.Keys| == |store.Keys| + 1;
  }

  /** A store under one key leaves what every other key reads unchanged. */
  lemma StoreFrame(store: Store, key: string, value: Json, other: string)
    requires other != key
    ensures GetObject(StoreObject(store, key, value), other) == GetObject(store, other)
  {
  }

  /** Storing twice under one key is the same as storing the last value. */
  lemma StoreLastWins(store: Store, key: string, v1: Json, v2: Json)
    ensures StoreObject(StoreObject(store, key, v1), key, v2) == StoreObject(store, key, v2)
  {
  }

  /** Storing the value a key already holds changes nothing. */
  lemma StoreSameIsIdentity(store: Store, key: string)
    requires key in store
    ensures StoreObject(store, key, store[key]) == store
  {
  }

  /** Two stores under different keys commute. */
  lemma StoresCommute(store: Store, k1: string, v1: Json, k2: string, v2: Json)
    requires k1 != k2
    ensures StoreObject(StoreObject(store, k1, v1), k2, v2)
         == StoreObject(StoreObject(store, k2, v2), k1, v1)
  {
  }

  /** True iff `after` agrees with `before` on every key except `key`. */
  predicate OnlyKeyChanged(before: Store, after: Store, key: string) {
    && (forall k :: k in before && k != key ==> k in after && after[k] == before[k])
    && (forall k :: k in after && k != key ==> k in before)
  }

  /** Python's `d[key]` on a value read from JSON: the field if the value is
      an object holding it, otherwise a KeyError/TypeError. */
  function Field(j: Json, key: string): (r: Result<Json>)
    ensures r.Ok? <==> j.JObj? && key in j.fields
    ensures r.Ok? ==> r.value == j.fields[key]
    ensures r.Err? ==> r.error == RuntimeFault(key)
  {
    if j.JObj? && key in j.fields then Ok(j.fields[key]) else Err(RuntimeFault(key))
  }

  /** The key under which a module's crawler stores its output: the module's
      object key and its id joined by a dash, as the API view reads it back. */
  function ModuleDataKey(objectKey: string, moduleId: string): string {
    objectKey + "-" + moduleId
  }

  /** Modules of one kind never overwrite each other's data: distinct ids
      give distinct keys. */
  lemma ModuleDataKeyInjective(objectKey: string, id1: string, id2: string)
    requires ModuleDataKey(objectKey, id1) == ModuleDataKey(objectKey, id2)
    ensures id1 == id2
  {
    var p := objectKey + "-";
    var k1 := ModuleDataKey(objectKey, id1);
    var k2 := ModuleDataKey(objectKey, id2);
    assert k1 == p + id1 && k2 == p + id2;
    assert id1 == k1[|p|..];
    assert id2 == k2[|p|..];
  }
}

=== FILE: errors.dfy ===
/** The error taxonomy of the crawler core (flirror/exceptions.py) plus the
    failure-compatible wrappers every other module returns. */
module Errors {

  datatype Option<+T> = None | Some(value: T)

  /** The ways a crawl step can fail. The first three mirror the project's
      own exception classes; the others stand for exceptions the code lets
      escape from libraries. */
  datatype Error =
    | ConfigError(msg: string)   // CrawlerConfigError (FlirrorConfigError in the tests), CLI usage errors
    | DataError(msg: string)     // CrawlerDataError
    | OAuthError(msg: string)    // GoogleOAuthError
    | ConnectionFailure          // requests' ConnectionError, not caught by the OAuth code
    | RuntimeFault(what: string) // KeyError/TypeError/ValueError on the named field or argument
    | TraceEnded                 // the supplied network trace ended before the polling loop did

  datatype Result<+T> = Ok(value: T) | Err(error: Error) {

    predicate IsFailure() {
      Err?
    }

    function PropagateFailure<U>(): Result<U>
      requires Err?
    {
      Err(error)
    }

    function Extract(): T
      requires Ok?
    {
      value
    }
  }

  /** True iff `part` occurs as a contiguous piece of `s`. */
  predicate Contains(s: string, part: string) {
    exists i | 0 <= i <= |s| - |part| :: OccursAt(s, part, i)
  }

  /** True iff `part` occurs in `s` starting at index `i`. */
  predicate OccursAt(s: string, part: string, i: int) {
    0 <= i <= |s| - |part| && s[i..i + |part|] == part
  }

  lemma ContainsPrefix(part: string, rest: string)
    ensures Contains(part + rest, part)
  {
    assert OccursAt(part + rest, part, 0);
  }
}

=== FILE: google_auth.dfy ===
/** The Google OAuth token lifecycle of the crawler
    (flirror/crawler/google_auth.py): the OAuth 2.0 Device Authorization
    Grant (sections 3.1 to 3.5 of RFC 8628) for the first token, the refresh
    grant (section 6 of RFC 6749) once it expires, and the cached token in
    between. The token lives in the object store under one key. The clock and
    every HTTP answer are inputs; a response body is the JSON the provider
    sent, so missing fields surface as the KeyError the code would raise. */
module GoogleAuth {
  import opened Errors
  import opened Database

  const TOKEN_KEY: string := "google_oauth_token"

  const MISSING_SECRET_MESSAGE: string :=
    "Environment variable 'GOOGLE_OAUTH_CLIENT_SECRET' must be set and point to a valid client-secret.json file"

  const DEVICE_EXPIRED_MESSAGE: string := "Device is expired, please restart the application."

  function FlowLoadMessage(path: string): string {
    "Could not load Google OAuth flow from '" + path + "'. Are you sure this file exists?"
  }

  /** The client identity a client-secret file holds. */
  datatype ClientConfig = ClientConfig(clientId: string, clientSecret: string)

  /** The GOOGLE_OAUTH_CLIENT_SECRET variable and the client-secret files on disk. */
  datatype Env = Env(secretPath: Option<string>, secretFiles: map<string, ClientConfig>)

  /** The bundle handed to the Google API client. */
  datatype Credentials = Credentials(clientId: string, clientSecret: string, token: Json)

  /** One HTTP exchange: the status and the JSON body, or no connection. */
  datatype HttpReply = Reply(status: int, body: Json) | ConnectionLost

  /** One request of the polling loop and the seconds it took. */
  datatype PollAttempt = PollAttempt(reply: HttpReply, took: nat)

  /** Everything the provider answers during one authentication: the refresh
      reply, the device-code reply, the seconds until polling starts, and the
      token endpoint's answers to the polls in order. */
  datatype Network = Network(refreshReply: HttpReply, deviceReply: HttpReply, deviceLatency: nat, polls: seq<PollAttempt>)

  /** The store after an operation, and its value or the exception it raised.
      The store is kept on failure too: the refresh stores before it reads
      the access token back. */
  datatype Step<+T> = Step(store: Store, result: Result<T>)

  /** `_get_oauth_flow`: the client configuration, or the two documented errors. */
  function GetOAuthFlow(env: Env): (r: Result<ClientConfig>)
    ensures env.secretPath.None? ==> r == Err(OAuthError(MISSING_SECRET_MESSAGE))
    ensures (env.secretPath.Some? && env.secretPath.value !in env.secretFiles)
              ==> r == Err(OAuthError(FlowLoadMessage(env.secretPath.value)))
    ensures r.Ok? ==> env.secretPath.Some? && env.secretFiles[env.secretPath.value] == r.value
  {
    match env.secretPath
    case None => Err(OAuthError(MISSING_SECRET_MESSAGE))
    case Some(path) =>
      if path in env.secretFiles then Ok(env.secretFiles[path])
      else Err(OAuthError(FlowLoadMessage(path)))
  }

  /** True iff a provider answer carries a numeric relative `expires_in`. */
  predicate HasRelativeExpiry(body: Json) {
    body.JObj? && "expires_in" in body.fields && body.fields["expires_in"].JInt?
  }

  /** `data["expires_in"] += now`: the same fields with the lifetime turned
      into an absolute time. */
  function WithAbsoluteExpiry(body: Json, now: int): (r: Result<map<string, Json>>)
    ensures r.Ok? <==> HasRelativeExpiry(body)
    ensures r.Err? ==> r.error == RuntimeFault("expires_in")
    ensures r.Ok? ==>
              && r.value.Keys == body.fields.Keys
              && r.value["expires_in"] == JInt(body.fields["expires_in"].i + now)
              && (forall k :: k in body.fields && k != "expires_in" ==> r.value[k] == body.fields[k])
  {
    if HasRelativeExpiry(body) then
      Ok(body.fields["expires_in" := JInt(body.fields["expires_in"].i + now)])
    else Err(RuntimeFault("expires_in"))
  }

  /** The record a refresh persists for `response`: absolute expiry, the
      response's refresh token or else the one that was used, and every
      other field as received. */
  ghost predicate RefreshedRecord(rec: map<string, Json>, response: map<string, Json>, refreshToken: Json, now: int)
    requires "expires_in" in response && response["expires_in"].JInt?
  {
    && rec.Keys == response.Keys + {"refresh_token"}
    && rec["expires_in"] == JInt(response["expires_in"].i + now)
    && rec["refresh_token"] == (if "refresh_token" in response then response["refresh_token"] else refreshToken)
    && (forall k :: k in response && k != "expires_in" && k != "refresh_token" ==> rec[k] == response[k])
  }

  /** True iff the stored token record's access token is `token`. */
  predicate HoldsToken(store: Store, token: Json) {
    TOKEN_KEY in store && Field(store[TOKEN_KEY], "access_token") == Ok(token)
  }

  /** `refresh_access_token`: exchange the refresh token, store the merged
      record under the token key, and return its access token. */
  function RefreshAccessToken(env: Env, store: Store, now: int, refreshToken: Json, reply: HttpReply): (r: Step<Json>)
    ensures OnlyKeyChanged(store, r.store, TOKEN_KEY)
    ensures GetOAuthFlow(env).Err? ==> r == Step(store, Err(GetOAuthFlow(env).error))
    ensures GetOAuthFlow(env).Ok? && reply.ConnectionLost? ==> r == Step(store, Err(ConnectionFailure))
    ensures (GetOAuthFlow(env).Ok? && reply.Reply? && !HasRelativeExpiry(reply.body))
              ==> r == Step(store, Err(RuntimeFault("expires_in")))
    ensures GetOAuthFlow(env).Ok? && reply.Reply? && HasRelativeExpiry(reply.body) ==>
              && TOKEN_KEY in r.store && r.store[TOKEN_KEY].JObj?
              && RefreshedRecord(r.store[TOKEN_KEY].fields, reply.body.fields, refreshToken, now)
              && r.result == Field(reply.body, "access_token")
    ensures r.result.Ok? ==> HoldsToken(r.store, r.result.value)
  {
    match GetOAuthFlow(env)
    case Err(e) => Step(store, Err(e))
    case Ok(_) =>
      match reply
      case ConnectionLost => Step(store, Err(ConnectionFailure))
      case Reply(_, body) =>
        match WithAbsoluteExpiry(body, now)
        case Err(e) => Step(store, Err(e))
        case Ok(data) =>
          var rec := if "refresh_token" !in data then data["refresh_token" := refreshToken] else data;
          var stored := StoreObject(store, TOKEN_KEY, JObj(rec));
          Step(stored, Field(JObj(rec), "access_token"))
  }

  /** True iff `raise_for_status` raises for this status. */
  predicate IsHttpError(status: int) {
    400 <= status < 600
  }

  /** `time.sleep(device["interval"])`: the pause in seconds, or the
      KeyError/TypeError/ValueError for a missing, non-numeric or negative one. */
  function PollPause(device: map<string, Json>): (r: Result<nat>)
    ensures r.Ok? <==> "interval" in device && device["interval"].JInt? && device["interval"].i >= 0
    ensures r.Ok? ==> r.value == device["interval"].i
    ensures r.Err? ==> r.error == RuntimeFault("interval")
  {
    if "interval" in device && device["interval"].JInt? && device["interval"].i >= 0 then
      Ok(device["interval"].i)
    else Err(RuntimeFault("interval"))
  }

  /** `poll_for_initial_access_token` from clock reading `t`: while the
      device code is still valid, request a token; an HTTP error sleeps the
      device's interval and retries, success stores the token with absolute
      expiry and ends the loop, and reaching the device's expiry raises. */
  function Poll(device: map<string, Json>, expiresAt: int, t: int, attempts: seq<PollAttempt>, store: Store)
    : (r: Step<map<string, Json>>)
    ensures OnlyKeyChanged(store, r.store, TOKEN_KEY)
    ensures r.result.Err? ==> r.store == store
    ensures r.result.Ok? ==> r.store == StoreObject(store, TOKEN_KEY, JObj(r.result.value))
    ensures r.result.Ok? ==> t < expiresAt && "expires_in" in r.result.value && r.result.value["expires_in"].JInt?
    ensures expiresAt <= t ==> r == Step(store, Err(OAuthError(DEVICE_EXPIRED_MESSAGE)))
    decreases |attempts|
  {
    if expiresAt <= t then Step(store, Err(OAuthError(DEVICE_EXPIRED_MESSAGE)))
    else if "device_code" !in device then Step(store, Err(RuntimeFault("device_code")))
    else if |attempts| == 0 then Step(store, Err(TraceEnded))
    else
      match attempts[0].reply
      case ConnectionLost => Step(store, Err(ConnectionFailure))
      case Reply(status, body) =>
        if IsHttpError(status) then
          match PollPause(device)
          case Err(e) => Step(store, Err(e))
          case Ok(pause) => Poll(device, expiresAt, t + attempts[0].took + pause, attempts[1..], store)
        else
          match WithAbsoluteExpiry(body, t)
          case Err(e) => Step(store, Err(e))
          case Ok(token) => Step(StoreObject(store, TOKEN_KEY, JObj(token)), Ok(token))
  }

  /** `ask_for_access`: request a device code, make its lifetime absolute,
      show the verification URL and user code, then poll for the token. */
  function AskForAccess(env: Env, store: Store, now: int, net: Network): (r: Step<Json>)
    ensures OnlyKeyChanged(store, r.store, TOKEN_KEY)
    ensures GetOAuthFlow(env).Err? ==> r == Step(store, Err(GetOAuthFlow(env).error))
    ensures GetOAuthFlow(env).Ok? && net.deviceReply.ConnectionLost? ==> r == Step(store, Err(ConnectionFailure))
    ensures (GetOAuthFlow(env).Ok? && net.deviceReply.Reply? && !HasRelativeExpiry(net.deviceReply.body))
              ==> r == Step(store, Err(RuntimeFault("expires_in")))
    ensures (GetOAuthFlow(env).Ok? && net.deviceReply.Reply? && HasRelativeExpiry(net.deviceReply.body)
             && "verification_url" in net.deviceReply.body.fields && "user_code" in net.deviceReply.body.fields) ==>
              var grant := net.deviceReply.body.fields;
              var expiresAt := now + grant["expires_in"].i;
              var polled := Poll(grant["expires_in" := JInt(expiresAt)], expiresAt, now + net.deviceLatency, net.polls, store);
              && r.store == polled.store
              && (polled.result.Err? ==> r.result == Err(polled.result.error))
              && (polled.result.Ok? ==> r.result == Field(JObj(polled.result.value), "access_token"))
    ensures r.result.Ok? ==> HoldsToken(r.store, r.result.value)
  {
    match GetOAuthFlow(env)
    case Err(e) => Step(store, Err(e))
    case Ok(_) =>
      match net.deviceReply
      case ConnectionLost => Step(store, Err(ConnectionFailure))
      case Reply(_, body) =>
        match WithAbsoluteExpiry(body, now)
        case Err(e) => Step(store, Err(e))
        case Ok(device) =>
          if "verification_url" !in device then Step(store, Err(RuntimeFault("verification_url")))
          else if "user_code" !in device then Step(store, Err(RuntimeFault("user_code")))
          else
            var polled := Poll(device, device["expires_in"].i, now + net.deviceLatency, net.polls, store);
            match polled.result
            case Err(e) => Step(polled.store, Err(e))
            case Ok(token) => Step(polled.store, Field(JObj(token), "access_token"))
  }

  /** `authenticate`: no stored record runs the device flow; a record whose
      absolute expiry is not after `now` is refreshed with its refresh token;
      otherwise its access token is returned as it is. */
  function Authenticate(env: Env, store: Store, now: int, net: Network): (r: Step<Json>)
    ensures OnlyKeyChanged(store, r.store, TOKEN_KEY)
    ensures TOKEN_KEY !in store ==> r == AskForAccess(env, store, now, net)
    ensures r.result.Ok? ==> HoldsToken(r.store, r.result.value)
  {
    match GetObject(store, TOKEN_KEY)
    case None => AskForAccess(env, store, now, net)
    case Some(record) =>
      match Field(record, "expires_in")
      case Err(e) => Step(store, Err(e))
      case Ok(expiry) =>
        if !expiry.JInt? then Step(store, Err(RuntimeFault("expires_in")))
        else if expiry.i <= now then
          match Field(record, "refresh_token")
          case Err(e) => Step(store, Err(e))
          case Ok(refreshToken) => RefreshAccessToken(env, store, now, refreshToken, net.refreshReply)
        else Step(store, Field(record, "access_token"))
  }

  /** `get_credentials`: authenticate, then bundle the client identity with
      the token; a None token gives no credentials. */
  function GetCredentials(env: Env, store: Store, now: int, net: Network): (r: Step<Option<Credentials>>)
    ensures r.store == Authenticate(env, store, now, net).store
    ensures Authenticate(env, store, now, net).result == Ok(JNull) ==> r.result == Ok(None)
    ensures r.result.Ok? && r.result.value.Some? ==>
              && Authenticate(env, store, now, net).result == Ok(r.result.value.value.token)
              && GetOAuthFlow(env).Ok?
              && r.result.value.value.clientId == GetOAuthFlow(env).value.clientId
              && r.result.value.value.clientSecret == GetOAuthFlow(env).value.clientSecret
    ensures (Authenticate(env, store, now, net).result.Ok? && Authenticate(env, store, now, net).result.value != JNull
             && GetOAuthFlow(env).Ok?) ==>
              r.result == Ok(Some(Credentials(GetOAuthFlow(env).value.clientId, GetOAuthFlow(env).value.clientSecret,
                                              Authenticate(env, store, now, net).result.value)))
    ensures Authenticate(env, store, now, net).result.Err? ==> r.result == Err(Authenticate(env, store, now, net).result.error)
    ensures (Authenticate(env, store, now, net).result.Ok? && Authenticate(env, store, now, net).result.value != JNull
             && GetOAuthFlow(env).Err?) ==> r.result == Err(GetOAuthFlow(env).error)
  {
    var auth := Authenticate(env, store, now, net);
    match auth.result
    case Err(e) => Step(auth.store, Err(e))
    case Ok(token) =>
      if token == JNull then Step(auth.store, Ok(None))
      else
        match GetOAuthFlow(env)
        case Err(e) => Step(auth.store, Err(e))
        case Ok(cfg) => Step(auth.store, Ok(Some(Credentials(cfg.clientId, cfg.clientSecret, token))))
  }

  // ---------------------------------------------------------------------
  // The three paths of authenticate

  /** A stored record that is still valid answers from the store: no request
      is made, whatever the network would have said, and nothing is written. */
  lemma CachedTokenNeedsNoNetwork(env: Env, store: Store, now: int, net: Network, access: Json)
    requires TOKEN_KEY in store && store[TOKEN_KEY].JObj?
    requires "expires_in" in store[TOKEN_KEY].fields
    requires store[TOKEN_KEY].fields["expires_in"].JInt? && store[TOKEN_KEY].fields["expires_in"].i > now
    requires Field(store[TOKEN_KEY], "access_token") == Ok(access)
    ensures Authenticate(env, store, now, net) == Step(store, Ok(access))
  {
  }

  /** An expired record is refreshed with its own refresh token; the device
      flow is never started, so the device and poll answers do not matter. */
  lemma ExpiredTokenIsRefreshed(env: Env, store: Store, now: int, net: Network, net': Network)
    requires TOKEN_KEY in store && store[TOKEN_KEY].JObj?
    requires "expires_in" in store[TOKEN_KEY].fields && "refresh_token" in store[TOKEN_KEY].fields
    requires store[TOKEN_KEY].fields["expires_in"].JInt? && store[TOKEN_KEY].fields["expires_in"].i <= now
    requires net'.refreshReply == net.refreshReply
    ensures Authenticate(env, store, now, net)
         == RefreshAccessToken(env, store, now, store[TOKEN_KEY].fields["refresh_token"], net.refreshReply)
    ensures Authenticate(env, store, now, net) == Authenticate(env, store, now, net')
  {
  }

  /** Without a stored record the device flow runs; the refresh reply is
      never used. */
  lemma MissingTokenRunsDeviceFlow(env: Env, store: Store, now: int, net: Network, net': Network)
    requires TOKEN_KEY !in store
    requires net'.deviceReply == net.deviceReply && net'.deviceLatency == net.deviceLatency
    requires net'.polls == net.polls
    ensures Authenticate(env, store, now, net) == AskForAccess(env, store, now, net)
    ensures Authenticate(env, store, now, net) == Authenticate(env, store, now, net')
  {
  }

  /** Whatever path produced a token, asking again before the stored expiry
      returns the same token from the store without touching the network. */
  lemma TokenIsCachedUntilExpiry(env: Env, store: Store, now: int, net: Network, later: int, net': Network)
    requires Authenticate(env, store, now, net).result.Ok?
    requires var s := Authenticate(env, store, now, net).store;
             s[TOKEN_KEY].JObj? && "expires_in" in s[TOKEN_KEY].fields
             && s[TOKEN_KEY].fields["expires_in"].JInt? && later < s[TOKEN_KEY].fields["expires_in"].i
    ensures var first := Authenticate(env, store, now, net);
            Authenticate(env, first.store, later, net') == first
  {
    var first := Authenticate(env, store, now, net);
    assert HoldsToken(first.store, first.result.value);
    CachedTokenNeedsNoNetwork(env, first.store, later, net', first.result.value);
  }

  /** A refresh whose answer grants a positive lifetime is served from the
      store by every authenticate within that lifetime. */
  lemma RefreshedTokenIsCached(env: Env, store: Store, now: int, refreshToken: Json, reply: HttpReply,
                               later: int, net': Network)
    requires GetOAuthFlow(env).Ok?
    requires reply.Reply? && HasRelativeExpiry(reply.body)
    requires now <= later < now + reply.body.fields["expires_in"].i
    requires RefreshAccessToken(env, store, now, refreshToken, reply).result.Ok?
    ensures var r := RefreshAccessToken(env, store, now, refreshToken, reply);
            Authenticate(env, r.store, later, net') == r
  {
    var r := RefreshAccessToken(env, store, now, refreshToken, reply);
    var rec := r.store[TOKEN_KEY].fields;
    assert rec["expires_in"] == JInt(reply.body.fields["expires_in"].i + now);
    CachedTokenNeedsNoNetwork(env, r.store, later, net', r.result.value);
  }

  // ---------------------------------------------------------------------
  // Refresh

  /** The refresh scenario of the OAuth tests: an answer without a refresh
      token at time `now` stores the token that was used, the absolute expiry
      now + 3600 and the other fields as received. */
  lemma RefreshKeepsRefreshToken(env: Env, store: Store, now: int)
    requires GetOAuthFlow(env).Ok?
    ensures
      var response := map["access_token" := JStr("some_access_token"), "expires_in" := JInt(3600),
                          "scope" := JStr("https://www.googleapis.com/auth/calendar.readonly"),
                          "token_type" := JStr("Bearer")];
      var r := RefreshAccessToken(env, store, now, JStr("refresh_token"), Reply(200, JObj(response)));
      && r.result == Ok(JStr("some_access_token"))
      && r.store == store[TOKEN_KEY := JObj(map["access_token" := JStr("some_access_token"),
                                              "expires_in" := JInt(now + 3600),
                                              "refresh_token" := JStr("refresh_token"),
                                              "scope" := JStr("https://www.googleapis.com/auth/calendar.readonly"),
                                              "token_type" := JStr("Bearer")])]
  {
    var scope := JStr("https://www.googleapis.com/auth/calendar.readonly");
    var response := map["access_token" := JStr("some_access_token"), "expires_in" := JInt(3600),
                        "scope" := scope, "token_type" := JStr("Bearer")];
    var expected := map["access_token" := JStr("some_access_token"), "expires_in" := JInt(now + 3600),
                        "refresh_token" := JStr("refresh_token"), "scope" := scope,
                        "token_type" := JStr("Bearer")];
    var data := response["expires_in" := JInt(3600 + now)];
    assert WithAbsoluteExpiry(JObj(response), now) == Ok(data);
    assert "refresh_token" !in data;
    assert data["refresh_token" := JStr("refresh_token")] == expected;
  }

  /** A refresh answer that does carry a refresh token replaces the old one. */
  lemma RefreshTakesNewRefreshToken(env: Env, store: Store, now: int, used: Json, reply: HttpReply)
    requires GetOAuthFlow(env).Ok?
    requires reply.Reply? && HasRelativeExpiry(reply.body) && "refresh_token" in reply.body.fields
    ensures var r := RefreshAccessToken(env, store, now, used, reply);
            r.store[TOKEN_KEY].JObj? && r.store[TOKEN_KEY].fields["refresh_token"] == reply.body.fields["refresh_token"]
  {
  }

  // ---------------------------------------------------------------------
  // Polling

  /** Any HTTP error status is retried after the device's interval, whatever
      the error says: "access_denied" and "expired_token" too, where section
      3.5 of RFC 8628 tells the client to stop, and "slow_down" without the
      longer interval that section asks for. */
  lemma PollRetriesOnAnyHttpError(device: map<string, Json>, expiresAt: int, t: int,
                                  attempts: seq<PollAttempt>, store: Store)
    requires t < expiresAt && "device_code" in device && PollPause(device).Ok?
    requires |attempts| > 0 && attempts[0].reply.Reply? && IsHttpError(attempts[0].reply.status)
    ensures Poll(device, expiresAt, t, attempts, store)
         == Poll(device, expiresAt, t + attempts[0].took + PollPause(device).value, attempts[1..], store)
  {
  }

  /** The first successful answer before the device expires ends the loop:
      the token is stored with expiry relative to that attempt's start. */
  lemma PollStoresFirstGrant(device: map<string, Json>, expiresAt: int, t: int,
                             attempts: seq<PollAttempt>, store: Store)
    requires t < expiresAt && "device_code" in device
    requires |attempts| > 0 && attempts[0].reply.Reply? && !IsHttpError(attempts[0].reply.status)
    requires HasRelativeExpiry(attempts[0].reply.body)
    ensures var r := Poll(device, expiresAt, t, attempts, store);
            && r.result.Ok?
            && r.result.value["expires_in"] == JInt(attempts[0].reply.body.fields["expires_in"].i + t)
            && r.store == store[TOKEN_KEY := JObj(r.result.value)]
  {
  }

  /** The loop is bounded: with an interval of at least one second, a trace
      with as many attempts as seconds remain before the device expires
      always ends the loop, in a token or an error, never mid-poll. */
  lemma {:induction false} PollBounded(device: map<string, Json>, expiresAt: int, t: int,
                                       attempts: seq<PollAttempt>, store: Store)
    requires "device_code" in device && "interval" in device
    requires device["interval"].JInt? && device["interval"].i >= 1
    requires |attempts| >= expiresAt - t
    ensures Poll(device, expiresAt, t, attempts, store).result != Err(TraceEnded)
    decreases |attempts|
  {
    if t < expiresAt {
      var a := attempts[0];
      if a.reply.Reply? && IsHttpError(a.reply.status) {
        var t' := t + a.took + device["interval"].i;
        PollBounded(device, expiresAt, t', attempts[1..], store);
      }
    }
  }

  /** The device grant's lifetime counts from the moment it was requested:
      a grant that lapses before polling can start ends in the expiry error
      without a single token request, and nothing is stored. */
  lemma DeviceGrantExpiresFromRequest(env: Env, store: Store, now: int, net: Network)
    requires GetOAuthFlow(env).Ok? && net.deviceReply.Reply? && HasRelativeExpiry(net.deviceReply.body)
    requires "verification_url" in net.deviceReply.body.fields && "user_code" in net.deviceReply.body.fields
    requires net.deviceReply.body.fields["expires_in"].i <= net.deviceLatency
    ensures AskForAccess(env, store, now, net) == Step(store, Err(OAuthError(DEVICE_EXPIRED_MESSAGE)))
  {
  }

  // ---------------------------------------------------------------------
  // Credentials

  /** Without the client-secret variable nothing is requested and nothing is
      stored, and no credentials come back. */
  lemma MissingSecretYieldsNoCredentials(env: Env, store: Store, now: int, net: Network)
    requires env.secretPath.None?
    ensures GetCredentials(env, store, now, net).store == store
    ensures !(GetCredentials(env, store, now, net).result.Ok? && GetCredentials(env, store, now, net).result.value.Some?)
  {
  }

  /** A valid stored token with a loadable flow yields credentials built
      from the flow's client identity and that token, with nothing requested
      and nothing stored. */
  lemma CachedTokenYieldsCredentials(env: Env, store: Store, now: int, net: Network, access: Json)
    requires GetOAuthFlow(env).Ok? && access != JNull
    requires TOKEN_KEY in store && store[TOKEN_KEY].JObj?
    requires "expires_in" in store[TOKEN_KEY].fields
    requires store[TOKEN_KEY].fields["expires_in"].JInt? && store[TOKEN_KEY].fields["expires_in"].i > now
    requires Field(store[TOKEN_KEY], "access_token") == Ok(access)
    ensures GetCredentials(env, store, now, net)
         == Step(store, Ok(Some(Credentials(GetOAuthFlow(env).value.clientId, GetOAuthFlow(env).value.clientSecret, access))))
  {
    CachedTokenNeedsNoNetwork(env, store, now, net, access);
  }

  /** The flow errors of the OAuth tests: the fixed message without the
      variable; with it, a missing file gives a message naming the path. */
  lemma OAuthFlowErrors(path: string, files: map<string, ClientConfig>)
    requires path !in files
    ensures GetOAuthFlow(Env(None, files)) == Err(OAuthError(MISSING_SECRET_MESSAGE))
    ensures GetOAuthFlow(Env(Some(path), files)).Err?
    ensures Contains(GetOAuthFlow(Env(Some(path), files)).error.msg, path)
  {
    var head := "Could not load Google OAuth flow from '";
    var tail := "'. Are you sure this file exists?";
    var m := FlowLoadMessage(path);
    assert m == head + path + tail;
    assert m[|head|..|head| + |path|] == path;
    assert OccursAt(m, path, |head|);
  }

}

=== FILE: interval.dfy ===
/** The interval strings of the crawler configuration ("5m", "10s", "7h"):
    a run of decimal digits followed by a unit word. The parser
    (`parse_interval_string`) is specified here by its tests: it accepts any
    unit word, and only the scheduler restricts units to s, m and h. */
module Interval {
  import opened Errors

  predicate IsDigit(c: char) {
    '0' <= c <= '9'
  }

  /** A character that may appear in a unit word (an ASCII letter). */
  predicate IsUnitChar(c: char) {
    'a' <= c <= 'z' || 'A' <= c <= 'Z'
  }

  predicate AllDigits(s: string) {
    forall i :: 0 <= i < |s| ==> IsDigit(s[i])
  }

  predicate AllUnitChars(s: string) {
    forall i :: 0 <= i < |s| ==> IsUnitChar(s[i])
  }

  /** `s` splits at `k` into a non-empty digit run and a non-empty unit word. */
  predicate SplitsAt(s: string, k: int) {
    0 < k < |s| && AllDigits(s[..k]) && AllUnitChars(s[k..])
  }

  /** The grammar of interval strings: digits, then a unit word. */
  ghost predicate IsIntervalString(s: string) {
    exists k :: SplitsAt(s, k)
  }

  function DigitValue(c: char): nat
    requires IsDigit(c)
  {
    (c as int) - ('0' as int)
  }

  function DigitChar(d: nat): (c: char)
    requires d < 10
    ensures IsDigit(c) && DigitValue(c) == d
  {
    ('0' as int + d) as char
  }

  /** The number a digit run denotes, most significant digit first. */
  function DecimalValue(d: string): nat
    requires AllDigits(d)
    decreases |d|
  {
    if |d| == 0 then 0 else DecimalValue(d[..|d| - 1]) * 10 + DigitValue(d[|d| - 1])
  }

  /** The length of the digit run `s` starts with. */
  function LeadingDigits(s: string): (k: nat)
    ensures k <= |s|
    ensures AllDigits(s[..k])
    ensures k < |s| ==> !IsDigit(s[k])
  {
    if |s| == 0 || !IsDigit(s[0]) then 0
    else
      var k' := LeadingDigits(s[1..]);
      assert s[..1 + k'] == [s[0]] + s[1..][..k'];
      1 + k'
  }

  /** An interval string splits in exactly one place: after its digit run. */
  lemma SplitIsLeadingDigits(s: string, k: int)
    requires SplitsAt(s, k)
    ensures k == LeadingDigits(s)
  {
    DigitsWithinRun(s, k);
    assert s[k..][0] == s[k];
    RunStopsAtNonDigit(s, k);
  }

  /** A digit prefix never extends past the leading digit run. */
  lemma {:induction false} DigitsWithinRun(s: string, j: int)
    requires 0 <= j <= |s| && AllDigits(s[..j])
    ensures j <= LeadingDigits(s)
    decreases j
  {
    if j > 0 {
      assert s[..j][0] == s[0];
      assert s[1..][..j - 1] == s[..j][1..];
      DigitsWithinRun(s[1..], j - 1);
    }
  }

  /** The leading digit run ends at the first non-digit. */
  lemma {:induction false} RunStopsAtNonDigit(s: string, j: int)
    requires 0 <= j < |s| && !IsDigit(s[j]) && AllDigits(s[..j])
    ensures LeadingDigits(s) <= j
    decreases j
  {
    if j > 0 {
      assert s[..j][0] == s[0];
      assert s[1..][..j - 1] == s[..j][1..];
      assert s[1..][j - 1] == s[j];
      RunStopsAtNonDigit(s[1..], j - 1);
    }
  }

  function ParseErrorMessage(s: string): string {
    "Could not parse interval string '" + s + "'"
  }

  /** `parse_interval_string`: the number and the unit word of an interval
      string, or a configuration error naming the string. */
  function ParseInterval(s: string): (r: Result<(nat, string)>)
    ensures r.Ok? <==> IsIntervalString(s)
    ensures r.Ok? ==> exists k :: SplitsAt(s, k) && r.value == (DecimalValue(s[..k]), s[k..])
    ensures r.Err? ==> r.error == ConfigError(ParseErrorMessage(s))
  {
    var k := LeadingDigits(s);
    if 0 < k < |s| && AllUnitChars(s[k..]) then
      assert SplitsAt(s, k);
      Ok((DecimalValue(s[..k]), s[k..]))
    else
      assert forall j :: SplitsAt(s, j) ==> j == k by {
        forall j | SplitsAt(s, j) ensures j == k {
          SplitIsLeadingDigits(s, j);
        }
      }
      Err(ConfigError(ParseErrorMessage(s)))
  }

  /** The shortest decimal spelling of `n`. */
  function NatToString(n: nat): (r: string)
    ensures |r| > 0 && AllDigits(r)
    ensures DecimalValue(r) == n
    ensures r[0] != '0' || n < 10
    decreases n
  {
    if n < 10 then [DigitChar(n)]
    else
      var p := NatToString(n / 10);
      var r := p + [DigitChar(n % 10)];
      assert r[..|r| - 1] == p;
      r
  }

  /** The canonical interval string for a number and a unit word. */
  function FormatInterval(n: nat, unit: string): string {
    NatToString(n) + unit
  }

  /** Parsing a formatted interval gives back its number and unit. */
  lemma ParseFormat(n: nat, unit: string)
    requires |unit| > 0 && AllUnitChars(unit)
    ensures ParseInterval(FormatInterval(n, unit)) == Ok((n, unit))
  {
    var d := NatToString(n);
    var s := d + unit;
    assert s[..|d|] == d && s[|d|..] == unit;
    assert SplitsAt(s, |d|);
    SplitIsLeadingDigits(s, |d|);
  }

  /** A digit run without a superfluous leading zero is the shortest
      spelling of the number it denotes. */
  lemma {:induction false} CanonicalDigits(d: string)
    requires |d| > 0 && AllDigits(d)
    requires d[0] != '0' || |d| == 1
    ensures NatToString(DecimalValue(d)) == d
    decreases |d|
  {
    if |d| > 1 {
      var p := d[..|d| - 1];
      var c := d[|d| - 1];
      LeadingNonZeroPositive(p);
      CanonicalDigits(p);
      var n := DecimalValue(d);
      assert n == DecimalValue(p) * 10 + DigitValue(c);
      assert n / 10 == DecimalValue(p) && n % 10 == DigitValue(c);
      assert DigitChar(DigitValue(c)) == c;
      assert d == p + [c];
    } else {
      assert DigitChar(DigitValue(d[0])) == d[0];
    }
  }

  lemma {:induction false} LeadingNonZeroPositive(d: string)
    requires |d| > 0 && AllDigits(d) && d[0] != '0'
    ensures DecimalValue(d) > 0
    decreases |d|
  {
    if |d| > 1 {
      var p := d[..|d| - 1];
      assert p[0] == d[0];
      LeadingNonZeroPositive(p);
    }
  }

  /** A successful parse splits after the leading digit run. */
  lemma ParseSplitsAtDigits(s: string)
    requires ParseInterval(s).Ok?
    ensures SplitsAt(s, LeadingDigits(s))
    ensures ParseInterval(s).value == (DecimalValue(s[..LeadingDigits(s)]), s[LeadingDigits(s)..])
  {
  }

  /** Formatting a parsed interval string without leading zeros gives the
      string back. */
  lemma FormatParse(s: string)
    requires ParseInterval(s).Ok?
    requires s[0] != '0' || LeadingDigits(s) == 1
    ensures FormatInterval(ParseInterval(s).value.0, ParseInterval(s).value.1) == s
  {
    var k := LeadingDigits(s);
    ParseSplitsAtDigits(s);
    var d := s[..k];
    assert d[0] == s[0];
    CanonicalDigits(d);
    assert s == d + s[k..];
  }

  /** The accepted single-letter strings of the parser's tests. */
  lemma ParseAcceptsLetterUnits()
    ensures ParseInterval("5m") == Ok((5, "m"))
    ensures ParseInterval("10s") == Ok((10, "s"))
    ensures ParseInterval("7h") == Ok((7, "h"))
  {
    assert FormatInterval(5, "m") == "5m";
    ParseFormat(5, "m");
    assert FormatInterval(10, "s") == "10s";
    ParseFormat(10, "s");
    assert FormatInterval(7, "h") == "7h";
    ParseFormat(7, "h");
  }

  /** The intervals of the scheduler's registration test. */
  lemma ParseAcceptsSchedulerExamples()
    ensures ParseInterval("30s") == Ok((30, "s"))
    ensures ParseInterval("10m") == Ok((10, "m"))
    ensures ParseInterval("1h") == Ok((1, "h"))
  {
    assert FormatInterval(30, "s") == "30s";
    ParseFormat(30, "s");
    assert FormatInterval(10, "m") == "10m";
    ParseFormat(10, "m");
    assert FormatInterval(1, "h") == "1h";
    ParseFormat(1, "h");
  }

  /** The parser accepts whole unit words too; the scheduler rejects them later. */
  lemma ParseAcceptsMinutes()
    ensures ParseInterval("5minutes") == Ok((5, "minutes"))
  {
    assert FormatInterval(5, "minutes") == "5minutes";
    ParseFormat(5, "minutes");
  }

  lemma ParseAcceptsSeconds()
    ensures ParseInterval("10seconds") == Ok((10, "seconds"))
  {
    assert FormatInterval(10, "seconds") == "10seconds";
    ParseFormat(10, "seconds");
  }

  lemma ParseAcceptsHours()
    ensures ParseInterval("7hours") == Ok((7, "hours"))
  {
    assert FormatInterval(7, "hours") == "7hours";
    ParseFormat(7, "hours");
  }

  lemma ParseAcceptsMilliseconds()
    ensures ParseInterval("6483ms") == Ok((6483, "ms"))
  {
    assert NatToString(6) == "6";
    assert NatToString(64) == "64";
    assert NatToString(648) == "648";
    assert NatToString(6483) == "6483";
    assert FormatInterval(6483, "ms") == "6483ms";
    ParseFormat(6483, "ms");
  }

  /** Every parse error carries the message fragment the tests look for. */
  lemma ParseErrorMentionsInterval(s: string)
    ensures Contains(ParseErrorMessage(s), "Could not parse interval string")
  {
    var prefix := "Could not parse interval string";
    assert ParseErrorMessage(s) == prefix + (" '" + s + "'");
    ContainsPrefix(prefix, " '" + s + "'");
  }

  /** The rejected strings of the parser's tests: no leading digits, no
      unit word, no digits at all. */
  lemma ParseRejectsExamples()
    ensures ParseInterval("m5") == Err(ConfigError(ParseErrorMessage("m5")))
    ensures ParseInterval("5000") == Err(ConfigError(ParseErrorMessage("5000")))
    ensures ParseInterval("ms") == Err(ConfigError(ParseErrorMessage("ms")))
  {
    assert LeadingDigits("m5") == 0;
    assert LeadingDigits("ms") == 0;
    assert LeadingDigits("5000") == 4;
  }
}

=== FILE: newsfeed.dfy ===
/** The news feed crawler (flirror/modules/newsfeed/__init__.py): parse a
    feed, refuse a broken one, and store its first `max_items` entries under
    the module's key. The parsed feed is an input; the publication time
    arrives as a timestamp, the result of the date conversion. */
module Newsfeed {
  import opened Errors
  import opened Database
  import opened PyList

  const OBJECT_KEY: string := "module_newsfeed"

  /** One feed entry; an attribute the feed did not provide is None. */
  datatype Entry = Entry(title: Option<string>, summary: Option<string>, id: Option<string>, published: Option<int>)

  /** What the feed parser returns: the text of its bozo exception, if it
      raised one, and the entries. */
  datatype Feed = Feed(bozo: Option<string>, entries: seq<Entry>)

  /** One stored news item. */
  datatype NewsItem = NewsItem(title: string, summary: string, link: string, published: int)

  function BozoMessage(name: string, problem: string): string {
    "Could not retrieve any news for '" + name + "' due to '" + problem + "'"
  }

  /** True iff the entry has every attribute an item is built from. */
  predicate Complete(e: Entry) {
    e.title.Some? && e.summary.Some? && e.id.Some? && e.published.Some?
  }

  /** The item for one entry: its title and summary, its id as the link. A
      missing attribute raises AttributeError, title first. */
  function ShapeEntry(e: Entry): (r: Result<NewsItem>)
    ensures r.Ok? <==> Complete(e)
    ensures r.Ok? ==> r.value == NewsItem(e.title.value, e.summary.value, e.id.value, e.published.value)
  {
    if e.title.None? then Err(RuntimeFault("title"))
    else if e.summary.None? then Err(RuntimeFault("summary"))
    else if e.id.None? then Err(RuntimeFault("id"))
    else if e.published.None? then Err(RuntimeFault("updated_parsed"))
    else Ok(NewsItem(e.title.value, e.summary.value, e.id.value, e.published.value))
  }

  /** The loop over the kept entries: one item per entry, in feed order. */
  function ShapeEntries(entries: seq<Entry>): (r: Result<seq<NewsItem>>)
    ensures r.Ok? <==> forall i :: 0 <= i < |entries| ==> Complete(entries[i])
    ensures r.Ok? ==> |r.value| == |entries|
    ensures r.Ok? ==> forall i :: 0 <= i < |entries| ==> r.value[i] == ShapeEntry(entries[i]).value
  {
    if |entries| == 0 then Ok([])
    else
      assert forall i :: 0 < i < |entries| ==> entries[i] == entries[1..][i - 1];
      var item :- ShapeEntry(entries[0]);
      var rest :- ShapeEntries(entries[1..]);
      Ok([item] + rest)
  }

  function ItemJson(item: NewsItem): Json {
    JObj(map["title" := JStr(item.title), "summary" := JStr(item.summary),
             "link" := JStr(item.link), "published" := JInt(item.published)])
  }

  /** `{"_timestamp": now, "news": items}` */
  function NewsRecord(now: int, items: seq<NewsItem>): Json {
    JObj(map["_timestamp" := JInt(now),
             "news" := JArr(seq(|items|, i requires 0 <= i < |items| => ItemJson(items[i])))])
  }

  /** The newsfeed `crawl`. A bozo feed is an error and an empty one is
      skipped, both without storing; otherwise the first `max_items`
      entries are stored once, under the module's key. */
  function Crawl(crawlerId: string, name: string, maxItems: int, feed: Feed, now: int, store: Store): (r: Result<Store>)
    ensures feed.bozo.Some? ==> r == Err(DataError(BozoMessage(name, feed.bozo.value)))
    ensures feed.bozo.None? && feed.entries == [] ==> r == Ok(store)
    ensures (feed.bozo.None? && feed.entries != [])
              ==> (r.Ok? <==> ShapeEntries(TakePrefix(feed.entries, maxItems)).Ok?)
    ensures (feed.bozo.None? && feed.entries != [] && r.Ok?)
              ==> r.value == StoreObject(store, ModuleDataKey(OBJECT_KEY, crawlerId),
                                         NewsRecord(now, ShapeEntries(TakePrefix(feed.entries, maxItems)).value))
  {
    if feed.bozo.Some? then Err(DataError(BozoMessage(name, feed.bozo.value)))
    else if feed.entries == [] then Ok(store)
    else
      var items :- ShapeEntries(TakePrefix(feed.entries, maxItems));
      Ok(StoreObject(store, ModuleDataKey(OBJECT_KEY, crawlerId), NewsRecord(now, items)))
  }

  // ---------------------------------------------------------------------
  // Properties

  /** The stored news are the first min(max_items, number of entries)
      entries in feed order, each shaped from its own entry: title and
      summary as given, the entry id as the link. */
  lemma StoredNewsAreFirstEntries(crawlerId: string, name: string, maxItems: int, feed: Feed, now: int, store: Store)
    requires maxItems >= 0
    requires feed.bozo.None? && feed.entries != []
    requires Crawl(crawlerId, name, maxItems, feed, now, store).Ok?
    ensures var items := ShapeEntries(TakePrefix(feed.entries, maxItems)).value;
            && |items| == (if maxItems < |feed.entries| then maxItems else |feed.entries|)
            && (forall i :: 0 <= i < |items| ==>
                  && items[i].title == feed.entries[i].title.value
                  && items[i].summary == feed.entries[i].summary.value
                  && items[i].link == feed.entries[i].id.value
                  && items[i].published == feed.entries[i].published.value)
  {
  }

  /** A successful crawl writes one record, under the module's key, and
      leaves every other key alone; a failed or empty one writes nothing. */
  lemma CrawlStoresOnlyItsKey(crawlerId: string, name: string, maxItems: int, feed: Feed, now: int, store: Store)
    requires Crawl(crawlerId, name, maxItems, feed, now, store).Ok?
    ensures OnlyKeyChanged(store, Crawl(crawlerId, name, maxItems, feed, now, store).value,
                           ModuleDataKey(OBJECT_KEY, crawlerId))
    ensures feed.entries == [] ==> Crawl(crawlerId, name, maxItems, feed, now, store).value == store
  {
  }

  /** A bound at least the feed's length stores every entry. */
  lemma LargeBoundKeepsAll(crawlerId: string, name: string, maxItems: int, feed: Feed, now: int, store: Store)
    requires feed.bozo.None? && feed.entries != [] && maxItems >= |feed.entries|
    requires forall i :: 0 <= i < |feed.entries| ==> Complete(feed.entries[i])
    ensures Crawl(crawlerId, name, maxItems, feed, now, store)
         == Ok(StoreObject(store, ModuleDataKey(OBJECT_KEY, crawlerId), NewsRecord(now, ShapeEntries(feed.entries).value)))
  {
    TakePrefixAll(feed.entries, maxItems);
  }

  /** An incomplete entry past the bound does not matter: only the kept
      entries are read. */
  lemma EntriesPastBoundIgnored(entries: seq<Entry>, extra: Entry, maxItems: int)
    requires 0 <= maxItems <= |entries|
    ensures TakePrefix(entries + [extra], maxItems) == TakePrefix(entries, maxItems)
  {
    assert (entries + [extra])[..maxItems] == entries[..maxItems];
  }
}

=== FILE: pylist.dfy ===
/** Python list operations the crawlers use: the prefix slice `xs[:n]`
    (including Python's meaning for a negative bound), `xs[::-1]`, and the
    filtering comprehension `[x for x in xs if p(x)]`, and the loop that
    extends one list with the results of a failing step per item. */
module PyList {
  import opened Errors

  /** The length of `xs[:n]` for a list of length `len`. */
  function SliceLength(len: nat, n: int): (k: nat)
    ensures k <= len
    ensures 0 <= n ==> k == (if n < len then n else len)
    ensures n < 0 ==> k == (if len + n > 0 then len + n else 0)
  {
    if 0 <= n then (if n < len then n else len)
    else if len + n > 0 then len + n else 0
  }

  /** `xs[:n]`: a prefix of `xs`; a negative `n` drops that many items from the end. */
  function TakePrefix<T>(xs: seq<T>, n: int): (r: seq<T>)
    ensures |r| == SliceLength(|xs|, n)
    ensures forall i :: 0 <= i < |r| ==> r[i] == xs[i]
  {
    xs[..SliceLength(|xs|, n)]
  }

  /** A bound of at least the list's length keeps the whole list. */
  lemma TakePrefixAll<T>(xs: seq<T>, n: int)
    requires n >= |xs|
    ensures TakePrefix(xs, n) == xs
  {
  }

  /** `xs[::-1]`, by recursion on the list. */
  function Reverse<T>(xs: seq<T>): (r: seq<T>)
    ensures |r| == |xs|
    ensures forall i :: 0 <= i < |xs| ==> r[i] == xs[|xs| - 1 - i]
  {
    if |xs| == 0 then [] else Reverse(xs[1..]) + [xs[0]]
  }

  /** Reversing twice gives the list back. */
  lemma ReverseInvolution<T>(xs: seq<T>)
    ensures Reverse(Reverse(xs)) == xs
  {
    var r := Reverse(Reverse(xs));
    assert |r| == |xs|;
    forall i | 0 <= i < |xs|
      ensures r[i] == xs[i]
    {
      assert Reverse(xs)[|xs| - 1 - i] == xs[i];
    }
  }

  /** Reversal turns a concatenation around. */
  lemma ReverseAppend<T>(xs: seq<T>, ys: seq<T>)
    ensures Reverse(xs + ys) == Reverse(ys) + Reverse(xs)
  {
    var l := Reverse(xs + ys);
    var r := Reverse(ys) + Reverse(xs);
    assert |l| == |r|;
    forall i | 0 <= i < |l|
      ensures l[i] == r[i]
    {
      if i < |ys| {
        assert r[i] == Reverse(ys)[i];
      } else {
        assert r[i] == Reverse(xs)[i - |ys|];
      }
    }
  }

  /** `[x for x in xs if p(x)]` */
  function Filter<T>(xs: seq<T>, p: T -> bool): (r: seq<T>)
    ensures |r| <= |xs|
  {
    if |xs| == 0 then [] else (if p(xs[0]) then [xs[0]] else []) + Filter(xs[1..], p)
  }

  /** The filtered list holds exactly the items that pass. */
  lemma {:induction false} FilterMembers<T>(xs: seq<T>, p: T -> bool, x: T)
    ensures x in Filter(xs, p) <==> x in xs && p(x)
    decreases |xs|
  {
    if |xs| > 0 {
      FilterMembers(xs[1..], p, x);
      assert xs == [xs[0]] + xs[1..];
    }
  }

  /** Nothing passes exactly when no item satisfies the condition. */
  lemma {:induction false} FilterEmpty<T>(xs: seq<T>, p: T -> bool)
    ensures Filter(xs, p) == [] <==> forall i :: 0 <= i < |xs| ==> !p(xs[i])
    decreases |xs|
  {
    if |xs| > 0 {
      var t := xs[1..];
      FilterEmpty(t, p);
      assert (forall i :: 0 <= i < |xs| ==> !p(xs[i])) <==> !p(xs[0]) && (forall i :: 0 <= i < |t| ==> !p(t[i])) by {
        assert forall i :: 0 < i < |xs| ==> xs[i] == t[i - 1];
      }
    }
  }

  /** Filtering keeps order: the filter of a concatenation is the
      concatenation of the filters. */
  lemma {:induction false} FilterAppend<T>(a: seq<T>, b: seq<T>, p: T -> bool)
    ensures Filter(a + b, p) == Filter(a, p) + Filter(b, p)
    decreases |a|
  {
    if |a| == 0 {
      assert a + b == b;
    } else {
      assert (a + b)[0] == a[0];
      assert (a + b)[1..] == a[1..] + b;
      FilterAppend(a[1..], b, p);
      var head := if p(a[0]) then [a[0]] else [];
      assert head + (Filter(a[1..], p) + Filter(b, p)) == (head + Filter(a[1..], p)) + Filter(b, p);
    }
  }

  /** A filter that every item passes keeps the whole list. */
  lemma {:induction false} FilterAll<T>(xs: seq<T>, p: T -> bool)
    requires forall i :: 0 <= i < |xs| ==> p(xs[i])
    ensures Filter(xs, p) == xs
    decreases |xs|
  {
    if |xs| > 0 {
      var t := xs[1..];
      assert forall i :: 0 <= i < |t| ==> t[i] == xs[i + 1];
      FilterAll(t, p);
      assert xs == [xs[0]] + t;
    }
  }

  /** `for x in xs: out.extend(f(x))`, where a failing step ends the loop
      with its error. */
  function ConcatMap<T, U>(xs: seq<T>, f: T -> Result<seq<U>>): Result<seq<U>>
  {
    if |xs| == 0 then Ok([])
    else
      var first :- f(xs[0]);
      var rest :- ConcatMap(xs[1..], f);
      Ok(first + rest)
  }

  /** The loop succeeds exactly when every step does. */
  lemma {:induction false} ConcatMapOk<T, U>(xs: seq<T>, f: T -> Result<seq<U>>)
    ensures ConcatMap(xs, f).Ok? <==> forall i :: 0 <= i < |xs| ==> f(xs[i]).Ok?
    decreases |xs|
  {
    if |xs| > 0 {
      var t := xs[1..];
      ConcatMapOk(t, f);
      assert forall i :: 0 < i < |xs| ==> xs[i] == t[i - 1];
    }
  }

  /** A failing loop fails with the error of its first failing step. */
  lemma {:induction false} ConcatMapError<T, U>(xs: seq<T>, f: T -> Result<seq<U>>)
    ensures ConcatMap(xs, f).Err? ==>
              exists i :: && 0 <= i < |xs| && f(xs[i]).Err? && ConcatMap(xs, f).error == f(xs[i]).error
                          && forall j :: 0 <= j < i ==> f(xs[j]).Ok?
    decreases |xs|
  {
    if |xs| > 0 && f(xs[0]).Ok? && ConcatMap(xs, f).Err? {
      var t := xs[1..];
      ConcatMapError(t, f);
      var j :| && 0 <= j < |t| && f(t[j]).Err? && ConcatMap(t, f).error == f(t[j]).error
               && forall k :: 0 <= k < j ==> f(t[k]).Ok?;
      assert forall k :: 1 <= k < j + 1 ==> xs[k] == t[k - 1];
      assert xs[j + 1] == t[j];
    } else if |xs| > 0 && ConcatMap(xs, f).Err? {
      assert f(xs[0]).Err?;
    }
  }

  /** Running the loop over a concatenation concatenates the outputs. */
  lemma {:induction false} ConcatMapAppend<T, U>(a: seq<T>, b: seq<T>, f: T -> Result<seq<U>>)
    requires ConcatMap(a, f).Ok? && ConcatMap(b, f).Ok?
    ensures ConcatMap(a + b, f) == Ok(ConcatMap(a, f).value + ConcatMap(b, f).value)
    decreases |a|
  {
    if |a| == 0 {
      assert a + b == b;
      assert [] + ConcatMap(b, f).value == ConcatMap(b, f).value;
    } else {
      var t, ab := a[1..], a + b;
      ConcatMapAppend(t, b, f);
      assert ab[0] == a[0] && ab[1..] == t + b;
      var first := f(a[0]).value;
      var restA, restB := ConcatMap(t, f).value, ConcatMap(b, f).value;
      assert first + (restA + restB) == (first + restA) + restB;
    }
  }
}

=== FILE: scheduling.dfy ===
/** The crawler scheduler (flirror/crawler/scheduling.py): registering a
    crawler's `crawl` action under its interval, and the batch and periodic
    runs with the fault isolation of the safe scheduler. Time is an explicit
    integer clock in seconds; a job's outcome is an input. */
module Scheduling {
  import opened Errors
  import opened Interval

  /** The three scheduling methods of the `schedule` library the crawler uses. */
  datatype TimeUnit = Seconds | Minutes | Hours

  /** INTERVAL_METHODS: the unit letter of an interval string to its method. */
  function UnitMethod(unit: string): (r: Option<TimeUnit>)
    ensures r.Some? <==> unit == "s" || unit == "m" || unit == "h"
  {
    if unit == "s" then Some(Seconds)
    else if unit == "m" then Some(Minutes)
    else if unit == "h" then Some(Hours)
    else None
  }

  /** The library method's name, as a job reports its unit. */
  function UnitName(u: TimeUnit): string {
    match u
    case Seconds => "seconds"
    case Minutes => "minutes"
    case Hours => "hours"
  }

  /** INTERVAL_METHODS as a table: "s", "m" and "h" name the methods
      "seconds", "minutes" and "hours". */
  lemma IntervalMethodNames()
    ensures UnitName(UnitMethod("s").value) == "seconds"
    ensures UnitName(UnitMethod("m").value) == "minutes"
    ensures UnitName(UnitMethod("h").value) == "hours"
  {
  }

  function UnitSeconds(u: TimeUnit): nat {
    match u
    case Seconds => 1
    case Minutes => 60
    case Hours => 3600
  }

  /** What the scheduler needs of a crawler: its id and its interval string. */
  datatype Crawler = Crawler(id: string, interval: string)

  /** A scheduled job. `action` names the crawler whose `crawl` it calls. */
  datatype Job = Job(interval: nat, unit: TimeUnit, action: string, lastRun: Option<int>, nextRun: int)

  /** The time between two runs of a job, in seconds. */
  function Period(j: Job): nat {
    j.interval * UnitSeconds(j.unit)
  }

  /** `schedule.every(interval).<unit>.do(action)` at time `now`: never run,
      due one period from now. */
  function NewJob(interval: nat, unit: TimeUnit, action: string, now: int): (j: Job)
    ensures j.lastRun.None?
    ensures j.nextRun == now + Period(j)
    ensures interval > 0 ==> j.nextRun > now
  {
    Job(interval, unit, action, None, now + interval * UnitSeconds(unit))
  }

  /** `Scheduler.add_job`: parse the crawler's interval; a parse error
      propagates, a unit without scheduling method is skipped, anything else
      appends one job. */
  function AddJob(jobs: seq<Job>, crawler: Crawler, now: int): (r: Result<seq<Job>>)
    ensures ParseInterval(crawler.interval).Err? ==> r == Err(ParseInterval(crawler.interval).error)
    ensures (ParseInterval(crawler.interval).Ok? && UnitMethod(ParseInterval(crawler.interval).value.1).None?)
              ==> r == Ok(jobs)
    ensures r.Ok? ==> |jobs| <= |r.value| <= |jobs| + 1 && r.value[..|jobs|] == jobs
    ensures r.Ok? && |r.value| == |jobs| + 1 ==>
              var (n, unit) := ParseInterval(crawler.interval).value;
              var job := r.value[|jobs|];
              && UnitMethod(unit) == Some(job.unit)
              && job.interval == n
              && job.action == crawler.id
              && job.lastRun.None?
              && job.nextRun == now + Period(job)
  {
    var (n, unit) :- ParseInterval(crawler.interval);
    match UnitMethod(unit)
    case None => Ok(jobs)
    case Some(u) => Ok(jobs + [NewJob(n, u, crawler.id, now)])
  }

  /** True iff add_job schedules `s`: it parses and its unit is s, m or h. */
  predicate Schedulable(s: string) {
    ParseInterval(s).Ok? && UnitMethod(ParseInterval(s).value.1).Some?
  }

  /** The job add_job creates for a schedulable crawler. */
  function JobFor(crawler: Crawler, now: int): Job
    requires Schedulable(crawler.interval)
  {
    var (n, unit) := ParseInterval(crawler.interval).value;
    NewJob(n, UnitMethod(unit).value, crawler.id, now)
  }

  function JobsFor(crawlers: seq<Crawler>, now: int): (r: seq<Job>)
    requires forall i :: 0 <= i < |crawlers| ==> Schedulable(crawlers[i].interval)
    ensures |r| == |crawlers|
    ensures forall i :: 0 <= i < |crawlers| ==> r[i] == JobFor(crawlers[i], now)
  {
    if |crawlers| == 0 then [] else [JobFor(crawlers[0], now)] + JobsFor(crawlers[1..], now)
  }

  /** Successive add_job calls, stopping at the first parse error. */
  function AddJobs(jobs: seq<Job>, crawlers: seq<Crawler>, now: int): Result<seq<Job>>
    decreases |crawlers|
  {
    if |crawlers| == 0 then Ok(jobs)
    else
      var jobs' :- AddJob(jobs, crawlers[0], now);
      AddJobs(jobs', crawlers[1..], now)
  }

  /** Registering schedulable crawlers one after another appends one job per
      crawler, in call order. */
  lemma {:induction false} AddJobsAppendsInOrder(jobs: seq<Job>, crawlers: seq<Crawler>, now: int)
    requires forall i :: 0 <= i < |crawlers| ==> Schedulable(crawlers[i].interval)
    ensures AddJobs(jobs, crawlers, now) == Ok(jobs + JobsFor(crawlers, now))
    decreases |crawlers|
  {
    if |crawlers| == 0 {
      assert jobs + [] == jobs;
    } else {
      var c := crawlers[0];
      var jobs' := jobs + [JobFor(c, now)];
      var rest := crawlers[1..];
      AddJobsStep(jobs, crawlers, now);
      assert forall i :: 0 <= i < |rest| ==> Schedulable(rest[i].interval) by {
        forall i | 0 <= i < |rest| ensures Schedulable(rest[i].interval) {
          assert rest[i] == crawlers[i + 1];
        }
      }
      AddJobsAppendsInOrder(jobs', rest, now);
      JobsForCons(crawlers, now);
      AppendAssoc(jobs, [JobFor(c, now)], JobsFor(rest, now));
    }
  }

  lemma JobsForCons(crawlers: seq<Crawler>, now: int)
    requires |crawlers| > 0
    requires forall i :: 0 <= i < |crawlers| ==> Schedulable(crawlers[i].interval)
    ensures JobsFor(crawlers, now) == [JobFor(crawlers[0], now)] + JobsFor(crawlers[1..], now)
  {
  }

  lemma AppendAssoc<T>(a: seq<T>, b: seq<T>, c: seq<T>)
    ensures a + b + c == a + (b + c)
  {
  }

  lemma AddJobsStep(jobs: seq<Job>, crawlers: seq<Crawler>, now: int)
    requires |crawlers| > 0 && Schedulable(crawlers[0].interval)
    ensures AddJobs(jobs, crawlers, now) == AddJobs(jobs + [JobFor(crawlers[0], now)], crawlers[1..], now)
  {
    AddJobSchedulable(jobs, crawlers[0], now);
  }

  /** add_job on a schedulable crawler appends exactly its job. */
  lemma AddJobSchedulable(jobs: seq<Job>, crawler: Crawler, now: int)
    requires Schedulable(crawler.interval)
    ensures AddJob(jobs, crawler, now) == Ok(jobs + [JobFor(crawler, now)])
  {
  }

  /** The registration scenario of the scheduler tests: "30s", "5m", "10m"
      and "1h" give jobs (30, seconds), (5, minutes), (10, minutes) and
      (1, hours), in that order, each bound to its own crawler. */
  lemma AddJobsExample(now: int)
    ensures AddJobs([], [Crawler("a", "30s"), Crawler("b", "5m"), Crawler("c", "10m"), Crawler("d", "1h")], now)
         == Ok([NewJob(30, Seconds, "a", now), NewJob(5, Minutes, "b", now),
                NewJob(10, Minutes, "c", now), NewJob(1, Hours, "d", now)])
  {
    var c1, c2, c3, c4 := Crawler("a", "30s"), Crawler("b", "5m"), Crawler("c", "10m"), Crawler("d", "1h");
    ParseAcceptsSchedulerExamples();
    ParseAcceptsLetterUnits();
    JobForExample(30, "s", c1, now);
    JobForExample(5, "m", c2, now);
    JobForExample(10, "m", c3, now);
    JobForExample(1, "h", c4, now);
    AddFourJobs(c1, c2, c3, c4, now);
  }

  lemma AddFourJobs(c1: Crawler, c2: Crawler, c3: Crawler, c4: Crawler, now: int)
    requires Schedulable(c1.interval) && Schedulable(c2.interval)
    requires Schedulable(c3.interval) && Schedulable(c4.interval)
    ensures AddJobs([], [c1, c2, c3, c4], now)
         == Ok([JobFor(c1, now), JobFor(c2, now), JobFor(c3, now), JobFor(c4, now)])
  {
    var j1, j2 := JobFor(c1, now), JobFor(c2, now);
    AddTwoJobs([], c1, c2, [c3, c4], now);
    assert [c1, c2] + [c3, c4] == [c1, c2, c3, c4] && [] + [j1, j2] == [j1, j2];
    AddTwoJobs([j1, j2], c3, c4, [], now);
    assert [c3, c4] + [] == [c3, c4];
    assert [j1, j2] + [JobFor(c3, now), JobFor(c4, now)] == [j1, j2, JobFor(c3, now), JobFor(c4, now)];
  }

  /** Two schedulable crawlers in front of the rest add their two jobs first. */
  lemma AddTwoJobs(jobs: seq<Job>, c1: Crawler, c2: Crawler, rest: seq<Crawler>, now: int)
    requires Schedulable(c1.interval) && Schedulable(c2.interval)
    ensures AddJobs(jobs, [c1, c2] + rest, now) == AddJobs(jobs + [JobFor(c1, now), JobFor(c2, now)], rest, now)
  {
    var cs := [c1, c2] + rest;
    assert cs[0] == c1 && cs[1..] == [c2] + rest;
    AddJobSchedulable(jobs, c1, now);
    var js := jobs + [JobFor(c1, now)];
    assert ([c2] + rest)[0] == c2 && ([c2] + rest)[1..] == rest;
    AddJobSchedulable(js, c2, now);
    assert js + [JobFor(c2, now)] == jobs + [JobFor(c1, now), JobFor(c2, now)];
  }

  lemma JobForExample(n: nat, unit: string, c: Crawler, now: int)
    requires unit == "s" || unit == "m" || unit == "h"
    requires ParseInterval(c.interval) == Ok((n, unit))
    ensures Schedulable(c.interval)
    ensures JobFor(c, now) == NewJob(n, UnitMethod(unit).value, c.id, now)
  {
  }

  /** A unit word that parses but has no scheduling method adds no job. */
  lemma AddJobSkipsUnknownUnits(jobs: seq<Job>, now: int)
    ensures AddJob(jobs, Crawler("x", "6483ms"), now) == Ok(jobs)
    ensures AddJob(jobs, Crawler("x", "5minutes"), now) == Ok(jobs)
  {
    ParseAcceptsMilliseconds();
    ParseAcceptsMinutes();
  }

  /** What a job's action did when it was called. */
  datatype JobOutcome = Completed | Raised(msg: string)

  /** A job after a run attempt at `now`: last run now, next run one period on. */
  function Rescheduled(j: Job, now: int): (r: Job)
    ensures r.interval == j.interval && r.unit == j.unit && r.action == j.action
    ensures r.lastRun == Some(now) && r.nextRun == now + Period(j)
  {
    j.(lastRun := Some(now), nextRun := now + Period(j))
  }

  /** The safe scheduler's log of failed runs: the failing job's action and the message. */
  datatype Failure = Failure(action: string, msg: string)

  /** `SafeScheduler.run_all`: every job runs once, in registration order;
      a raising job is logged and rescheduled exactly like a completed one. */
  function RunAllSafe(jobs: seq<Job>, outcomes: seq<JobOutcome>, now: int): (r: (seq<Job>, seq<Failure>))
    requires |outcomes| == |jobs|
    ensures |r.0| == |jobs|
    ensures forall i :: 0 <= i < |jobs| ==> r.0[i] == Rescheduled(jobs[i], now)
    decreases |jobs|
  {
    if |jobs| == 0 then ([], [])
    else
      var (rest, log) := RunAllSafe(jobs[1..], outcomes[1..], now);
      var entry := if outcomes[0].Raised? then [Failure(jobs[0].action, outcomes[0].msg)] else [];
      assert forall i :: 1 <= i < |jobs| ==> jobs[1..][i - 1] == jobs[i];
      ([Rescheduled(jobs[0], now)] + rest, entry + log)
  }

  /** The safe run's log holds one entry per raising job and nothing else. */
  lemma {:induction false} RunAllSafeLogsFailures(jobs: seq<Job>, outcomes: seq<JobOutcome>, now: int)
    requires |outcomes| == |jobs|
    ensures var log := RunAllSafe(jobs, outcomes, now).1;
            && (forall i :: 0 <= i < |jobs| && outcomes[i].Raised? ==> Failure(jobs[i].action, outcomes[i].msg) in log)
            && (forall f :: f in log ==>
                  exists i :: 0 <= i < |jobs| && outcomes[i].Raised? && f == Failure(jobs[i].action, outcomes[i].msg))
    decreases |jobs|
  {
    if |jobs| > 0 {
      var js, os := jobs[1..], outcomes[1..];
      RunAllSafeLogsFailures(js, os, now);
      var log := RunAllSafe(js, os, now).1;
      var entry := if outcomes[0].Raised? then [Failure(jobs[0].action, outcomes[0].msg)] else [];
      assert RunAllSafe(jobs, outcomes, now).1 == entry + log;
      forall i | 1 <= i < |jobs| && outcomes[i].Raised?
        ensures Failure(jobs[i].action, outcomes[i].msg) in entry + log
      {
        assert js[i - 1] == jobs[i] && os[i - 1] == outcomes[i];
      }
      forall f | f in entry + log
        ensures exists i :: 0 <= i < |jobs| && outcomes[i].Raised? && f == Failure(jobs[i].action, outcomes[i].msg)
      {
        if f !in entry {
          var k :| 0 <= k < |js| && os[k].Raised? && f == Failure(js[k].action, os[k].msg);
          assert js[k] == jobs[k + 1] && os[k] == outcomes[k + 1];
        }
      }
    }
  }

  /** The index of the first raising outcome, or the length when none raises. */
  function FirstRaised(outcomes: seq<JobOutcome>): (k: nat)
    ensures k <= |outcomes|
    ensures forall i :: 0 <= i < k ==> outcomes[i].Completed?
    ensures k < |outcomes| ==> outcomes[k].Raised?
  {
    if |outcomes| == 0 || outcomes[0].Raised? then 0 else 1 + FirstRaised(outcomes[1..])
  }

  /** The state of a plain run_all and the exception it raised, if any. */
  datatype RunResult = RunResult(jobs: seq<Job>, error: Option<string>)

  /** The plain scheduler's run_all: jobs run in order until one raises; the
      exception propagates and the raising job keeps its old last and next run. */
  function RunAllPlain(jobs: seq<Job>, outcomes: seq<JobOutcome>, now: int): (r: RunResult)
    requires |outcomes| == |jobs|
    ensures |r.jobs| == |jobs|
    ensures r.error.None? <==> forall i :: 0 <= i < |jobs| ==> outcomes[i].Completed?
    decreases |jobs|
  {
    if |jobs| == 0 then RunResult([], None)
    else if outcomes[0].Raised? then RunResult(jobs, Some(outcomes[0].msg))
    else
      var rest := RunAllPlain(jobs[1..], outcomes[1..], now);
      assert forall i :: 1 <= i < |jobs| ==> outcomes[1..][i - 1] == outcomes[i];
      RunResult([Rescheduled(jobs[0], now)] + rest.jobs, rest.error)
  }

  /** The plain run stops at the first raising job: the jobs before it are
      rescheduled, it and every later job keep their state, and its
      exception is the one raised. */
  lemma {:induction false} RunAllPlainStopsAtFirstRaise(jobs: seq<Job>, outcomes: seq<JobOutcome>, now: int)
    requires |outcomes| == |jobs|
    ensures var r := RunAllPlain(jobs, outcomes, now);
            var k := FirstRaised(outcomes);
            && (forall i :: 0 <= i < k ==> r.jobs[i] == Rescheduled(jobs[i], now))
            && r.jobs[k..] == jobs[k..]
            && (k < |jobs| ==> r.error == Some(outcomes[k].msg))
    decreases |jobs|
  {
    if |jobs| > 0 && outcomes[0].Completed? {
      RunAllPlainStopsAtFirstRaise(jobs[1..], outcomes[1..], now);
      var rest := RunAllPlain(jobs[1..], outcomes[1..], now);
      var r := RunAllPlain(jobs, outcomes, now);
      assert r.jobs == [Rescheduled(jobs[0], now)] + rest.jobs;
      var k := FirstRaised(outcomes);
      assert k == 1 + FirstRaised(outcomes[1..]);
      forall i | 1 <= i < k
        ensures r.jobs[i] == Rescheduled(jobs[i], now)
      {
        assert r.jobs[i] == rest.jobs[i - 1];
        assert jobs[1..][i - 1] == jobs[i];
      }
      assert r.jobs[k..] == rest.jobs[k - 1..];
      assert jobs[1..][k - 1..] == jobs[k..];
      assert k < |jobs| ==> outcomes[1..][k - 1] == outcomes[k];
    }
  }

  /** Without failures the safe and the plain scheduler leave the same jobs. */
  lemma SafeMatchesPlainWithoutFailures(jobs: seq<Job>, outcomes: seq<JobOutcome>, now: int)
    requires |outcomes| == |jobs|
    requires forall i :: 0 <= i < |jobs| ==> outcomes[i].Completed?
    ensures RunAllPlain(jobs, outcomes, now).jobs == RunAllSafe(jobs, outcomes, now).0
    ensures RunAllSafe(jobs, outcomes, now).1 == []
  {
    var p := RunAllPlain(jobs, outcomes, now).jobs;
    var s := RunAllSafe(jobs, outcomes, now);
    RunAllPlainStopsAtFirstRaise(jobs, outcomes, now);
    assert FirstRaised(outcomes) == |jobs|;
    assert |p| == |s.0|;
  }

  /** The exception-handling scenario of the scheduler tests: an hourly job
      that always raises, registered at `created` and run at `now`. The plain
      scheduler propagates the error and keeps the job never-run and due in
      the future; the safe one swallows it, records the run and reschedules. */
  lemma FailingJobScenario(created: int, now: int, later: int)
    requires created <= now < later < created + 3600
    ensures var job := NewJob(1, Hours, "failjob", created);
            var plain := RunAllPlain([job], [Raised("I will always fail")], now);
            var safe := RunAllSafe([job], [Raised("I will always fail")], now);
            && plain.error == Some("I will always fail")
            && plain.jobs[0].lastRun.None? && plain.jobs[0].nextRun > now
            && |safe.0| == 1
            && safe.0[0].lastRun.Some? && safe.0[0].lastRun.value < later
            && safe.0[0].nextRun > later
            && safe.1 == [Failure("failjob", "I will always fail")]
  {
    var job := NewJob(1, Hours, "failjob", created);
    assert Period(job) == 3600;
    RunAllPlainStopsAtFirstRaise([job], [Raised("I will always fail")], now);
    assert FirstRaised([Raised("I will always fail")]) == 0;
  }

  /** A job is due when its next run is not in the future. */
  predicate Due(j: Job, now: int) {
    j.nextRun <= now
  }

  /** One tick of `SafeScheduler.start`, the loop the crawl command runs
      in periodic mode: `run_pending` runs every due job, logs a raising one
      and reschedules it like a completed one; jobs not yet due neither run
      nor change, whatever their outcome would have been. */
  function RunPending(jobs: seq<Job>, outcomes: seq<JobOutcome>, now: int): (r: (seq<Job>, seq<Failure>))
    requires |outcomes| == |jobs|
    ensures |r.0| == |jobs|
    ensures forall i :: 0 <= i < |jobs| ==>
              r.0[i] == (if Due(jobs[i], now) then Rescheduled(jobs[i], now) else jobs[i])
    decreases |jobs|
  {
    if |jobs| == 0 then ([], [])
    else
      var ran := Due(jobs[0], now);
      var head := if ran then Rescheduled(jobs[0], now) else jobs[0];
      var entry := if ran && outcomes[0].Raised? then [Failure(jobs[0].action, outcomes[0].msg)] else [];
      var (rest, log) := RunPending(jobs[1..], outcomes[1..], now);
      assert forall i :: 1 <= i < |jobs| ==> jobs[1..][i - 1] == jobs[i];
      ([head] + rest, entry + log)
  }

  /** After a tick no job with a positive interval is still due: failures
      never leave a job spinning. */
  lemma RunPendingLeavesNothingDue(jobs: seq<Job>, outcomes: seq<JobOutcome>, now: int)
    requires |outcomes| == |jobs|
    requires forall i :: 0 <= i < |jobs| ==> jobs[i].interval > 0
    ensures forall i :: 0 <= i < |jobs| ==> !Due(RunPending(jobs, outcomes, now).0[i], now)
  {
  }

  /** When every job is due, a tick is exactly the safe `run_all`: the same
      rescheduled jobs and the same failure log. */
  lemma {:induction false} RunPendingAllDueIsRunAll(jobs: seq<Job>, outcomes: seq<JobOutcome>, now: int)
    requires |outcomes| == |jobs|
    requires forall i :: 0 <= i < |jobs| ==> Due(jobs[i], now)
    ensures RunPending(jobs, outcomes, now) == RunAllSafe(jobs, outcomes, now)
    decreases |jobs|
  {
    if |jobs| > 0 {
      assert forall i :: 0 <= i < |jobs| - 1 ==> jobs[1..][i] == jobs[i + 1];
      RunPendingAllDueIsRunAll(jobs[1..], outcomes[1..], now);
    }
  }

  /** A tick at which no job is due changes nothing and logs nothing. */
  lemma {:induction false} RunPendingIdleTick(jobs: seq<Job>, outcomes: seq<JobOutcome>, now: int)
    requires |outcomes| == |jobs|
    requires forall i :: 0 <= i < |jobs| ==> !Due(jobs[i], now)
    ensures RunPending(jobs, outcomes, now) == (jobs, [])
    decreases |jobs|
  {
    if |jobs| > 0 {
      assert forall i :: 0 <= i < |jobs| - 1 ==> jobs[1..][i] == jobs[i + 1];
      RunPendingIdleTick(jobs[1..], outcomes[1..], now);
      assert !Due(jobs[0], now);
      var empty: seq<Failure> := [];
      assert RunPending(jobs, outcomes, now) == ([jobs[0]] + jobs[1..], empty + empty);
      assert jobs == [jobs[0]] + jobs[1..] && empty + empty == empty;
      assert RunPending(jobs, outcomes, now) == (jobs, empty);
    } else {
      assert jobs == [];
    }
  }
}

=== FILE: stocks.dfy ===
/** The stocks crawler (flirror/modules/stocks/__init__.py): for each
    configured (symbol, alias) pair, fetch a quote ("table" mode) or an
    intraday series (any other mode) and store them all under the module's
    key; plus the `list_filter` template filter. The quote and intraday
    services are inputs: functions from a symbol to the reply. */
module Stocks {
  import opened Errors
  import opened Database
  import opened PyList

  const OBJECT_KEY: string := "module_stocks"

  const TABLE_MODE: string := "table"

  const CONNECT_MESSAGE: string := "Could not connect to Alpha Vantage API"

  /** The quote endpoint's reply: the returned list, no connection
      (requests' ConnectionError), or any other error the call raises, which
      the crawl does not catch. */
  datatype QuoteReply = Quote(data: seq<Json>) | QuoteUnreachable | QuoteFailed(error: Error)

  /** The intraday endpoint's reply: the (time, values) pairs in the order
      the returned dictionary iterates them, and the metadata; no
      connection; or any other error the call raises, which the crawl does
      not catch. */
  datatype IntradayReply = Intraday(series: seq<(string, Json)>, meta: Json) | IntradayUnreachable
                         | IntradayFailed(error: Error)

  /** True iff `d[key]` succeeds on every dictionary of the list. */
  predicate AllHaveKey(dicts: seq<Json>, key: string) {
    forall i :: 0 <= i < |dicts| ==> dicts[i].JObj? && key in dicts[i].fields
  }

  /** `list_filter`: `[d[key] for d in list_of_dicts]`. A dictionary without
      the key raises KeyError, whichever it is. */
  function ListFilter(dicts: seq<Json>, key: string): (r: Result<seq<Json>>)
    ensures r.Ok? <==> forall i :: 0 <= i < |dicts| ==> Field(dicts[i], key).Ok?
    ensures r.Err? ==> r.error == RuntimeFault(key)
    ensures r.Ok? ==> |r.value| == |dicts|
    ensures r.Ok? ==> forall i :: 0 <= i < |dicts| ==> Field(dicts[i], key) == Ok(r.value[i])
  {
    if AllHaveKey(dicts, key) then Ok(seq(|dicts|, i requires 0 <= i < |dicts| => dicts[i].fields[key]))
    else Err(RuntimeFault(key))
  }

  /** True iff a sample has all five numbered values. */
  predicate FullSample(values: Json) {
    && values.JObj?
    && "1. open" in values.fields && "2. high" in values.fields && "3. low" in values.fields
    && "4. close" in values.fields && "5. volume" in values.fields
  }

  /** One sample with "1. open".."5. volume" renamed to open..volume; a
      missing value raises KeyError, open first. */
  function Normalize(values: Json): (r: Result<Json>)
    ensures r.Ok? <==> FullSample(values)
    ensures r.Err? ==> r.error.RuntimeFault?
    ensures r.Ok? ==> r.value.JObj? && r.value.fields.Keys == {"open", "high", "low", "close", "volume"}
    ensures r.Ok? ==> && r.value.fields["open"] == values.fields["1. open"]
                      && r.value.fields["high"] == values.fields["2. high"]
                      && r.value.fields["low"] == values.fields["3. low"]
                      && r.value.fields["close"] == values.fields["4. close"]
                      && r.value.fields["volume"] == values.fields["5. volume"]
  {
    var open :- Field(values, "1. open");
    var high :- Field(values, "2. high");
    var low :- Field(values, "3. low");
    var close :- Field(values, "4. close");
    var volume :- Field(values, "5. volume");
    Ok(JObj(map["open" := open, "high" := high, "low" := low, "close" := close, "volume" := volume]))
  }

  /** The loop over `data.items()`: the normalized samples and their times,
      in iteration order. */
  function Collect(series: seq<(string, Json)>): (r: Result<(seq<Json>, seq<string>)>)
    ensures r.Ok? <==> forall i :: 0 <= i < |series| ==> FullSample(series[i].1)
    ensures r.Ok? ==> |r.value.0| == |series| && |r.value.1| == |series|
    ensures r.Ok? ==> forall i :: 0 <= i < |series| ==>
                        r.value.0[i] == Normalize(series[i].1).value && r.value.1[i] == series[i].0
  {
    if |series| == 0 then Ok(([], []))
    else
      assert forall i :: 0 < i < |series| ==> series[i] == series[1..][i - 1];
      var v :- Normalize(series[0].1);
      var rest :- Collect(series[1..]);
      Ok(([v] + rest.0, [series[0].0] + rest.1))
  }

  function JsonStrings(xs: seq<string>): (r: seq<Json>)
    ensures |r| == |xs| && forall i :: 0 <= i < |xs| ==> r[i] == JStr(xs[i])
  {
    seq(|xs|, i requires 0 <= i < |xs| => JStr(xs[i]))
  }

  /** The stored entry for one symbol in intraday mode: values and times
      reversed together, so that the oldest sample comes first. */
  function IntradayEntry(symbol: string, alias: string, series: seq<(string, Json)>, meta: Json): (r: Result<Json>)
    ensures r.Ok? <==> Collect(series).Ok?
  {
    var collected :- Collect(series);
    Ok(JObj(map["symbol" := JStr(symbol), "alias" := JStr(alias),
                "data" := JObj(map["values" := JArr(Reverse(collected.0)),
                                   "times" := JArr(JsonStrings(Reverse(collected.1)))]),
                "meta_data" := meta]))
  }

  /** The stored entry for one symbol in table mode: the first element of
      the quote reply. */
  function TableEntry(symbol: string, alias: string, data: seq<Json>): (r: Result<Json>)
    ensures r.Ok? <==> |data| > 0
    ensures r.Ok? ==> r.value == JObj(map["symbol" := JStr(symbol), "alias" := JStr(alias), "data" := data[0]])
  {
    if |data| == 0 then Err(RuntimeFault("data"))
    else Ok(JObj(map["symbol" := JStr(symbol), "alias" := JStr(alias), "data" := data[0]]))
  }

  /** The entry for one (symbol, alias) pair; an unreachable service is a
      data error, and any other failure of the call escapes unchanged. */
  function Entry(mode: string, symbol: string, alias: string,
                 quoteFor: string -> QuoteReply, intradayFor: string -> IntradayReply): (r: Result<Json>)
    ensures mode == TABLE_MODE && quoteFor(symbol).QuoteUnreachable? ==> r == Err(DataError(CONNECT_MESSAGE))
    ensures mode != TABLE_MODE && intradayFor(symbol).IntradayUnreachable? ==> r == Err(DataError(CONNECT_MESSAGE))
    ensures mode == TABLE_MODE && quoteFor(symbol).QuoteFailed? ==> r == Err(quoteFor(symbol).error)
    ensures mode != TABLE_MODE && intradayFor(symbol).IntradayFailed? ==> r == Err(intradayFor(symbol).error)
    ensures mode == TABLE_MODE && quoteFor(symbol).Quote? ==> r == TableEntry(symbol, alias, quoteFor(symbol).data)
    ensures (mode != TABLE_MODE && intradayFor(symbol).Intraday?)
              ==> r == IntradayEntry(symbol, alias, intradayFor(symbol).series, intradayFor(symbol).meta)
  {
    if mode == TABLE_MODE then
      match quoteFor(symbol)
      case QuoteUnreachable => Err(DataError(CONNECT_MESSAGE))
      case QuoteFailed(e) => Err(e)
      case Quote(data) => TableEntry(symbol, alias, data)
    else
      match intradayFor(symbol)
      case IntradayUnreachable => Err(DataError(CONNECT_MESSAGE))
      case IntradayFailed(e) => Err(e)
      case Intraday(series, meta) => IntradayEntry(symbol, alias, series, meta)
  }

  /** The loop over the configured symbols: one entry per pair, in order;
      the first failure ends the crawl. */
  function Entries(symbols: seq<(string, string)>, mode: string,
                   quoteFor: string -> QuoteReply, intradayFor: string -> IntradayReply): (r: Result<seq<Json>>)
    ensures r.Ok? <==> forall i :: 0 <= i < |symbols| ==> Entry(mode, symbols[i].0, symbols[i].1, quoteFor, intradayFor).Ok?
    ensures r.Ok? ==> |r.value| == |symbols|
    ensures r.Ok? ==> forall i :: 0 <= i < |symbols| ==>
                        r.value[i] == Entry(mode, symbols[i].0, symbols[i].1, quoteFor, intradayFor).value
  {
    if |symbols| == 0 then Ok([])
    else
      assert forall i :: 0 < i < |symbols| ==> symbols[i] == symbols[1..][i - 1];
      var e :- Entry(mode, symbols[0].0, symbols[0].1, quoteFor, intradayFor);
      var rest :- Entries(symbols[1..], mode, quoteFor, intradayFor);
      Ok([e] + rest)
  }

  /** A failing loop fails with the error of its first failing pair: every
      pair before it produced its entry. */
  lemma {:induction false} EntriesFirstFailure(symbols: seq<(string, string)>, mode: string,
                                               quoteFor: string -> QuoteReply, intradayFor: string -> IntradayReply)
    requires Entries(symbols, mode, quoteFor, intradayFor).Err?
    ensures exists i :: && 0 <= i < |symbols|
                        && Entry(mode, symbols[i].0, symbols[i].1, quoteFor, intradayFor)
                           == Err(Entries(symbols, mode, quoteFor, intradayFor).error)
                        && forall j :: 0 <= j < i ==> Entry(mode, symbols[j].0, symbols[j].1, quoteFor, intradayFor).Ok?
    decreases |symbols|
  {
    if Entry(mode, symbols[0].0, symbols[0].1, quoteFor, intradayFor).Ok? {
      var t := symbols[1..];
      EntriesFirstFailure(t, mode, quoteFor, intradayFor);
      var k :| && 0 <= k < |t|
               && Entry(mode, t[k].0, t[k].1, quoteFor, intradayFor) == Err(Entries(t, mode, quoteFor, intradayFor).error)
               && forall j :: 0 <= j < k ==> Entry(mode, t[j].0, t[j].1, quoteFor, intradayFor).Ok?;
      assert forall j :: 1 <= j < k + 1 ==> symbols[j] == t[j - 1];
      assert symbols[k + 1] == t[k];
    } else {
      assert Entry(mode, symbols[0].0, symbols[0].1, quoteFor, intradayFor) == Err(Entries(symbols, mode, quoteFor, intradayFor).error);
    }
  }

  /** `{"_timestamp": now, "stocks": entries}` */
  function StocksRecord(now: int, entries: seq<Json>): Json {
    JObj(map["_timestamp" := JInt(now), "stocks" := JArr(entries)])
  }

  /** The stocks `crawl`: every symbol's entry, stored once under the
      module's key, or the first error with nothing stored. */
  function Crawl(crawlerId: string, symbols: seq<(string, string)>, mode: string,
                 quoteFor: string -> QuoteReply, intradayFor: string -> IntradayReply,
                 now: int, store: Store): (r: Result<Store>)
    ensures r.Ok? <==> Entries(symbols, mode, quoteFor, intradayFor).Ok?
    ensures r.Err? ==> r.error == Entries(symbols, mode, quoteFor, intradayFor).error
    ensures r.Ok? ==> r.value == StoreObject(store, ModuleDataKey(OBJECT_KEY, crawlerId),
                                             StocksRecord(now, Entries(symbols, mode, quoteFor, intradayFor).value))
  {
    var entries :- Entries(symbols, mode, quoteFor, intradayFor);
    Ok(StoreObject(store, ModuleDataKey(OBJECT_KEY, crawlerId), StocksRecord(now, entries)))
  }

  // ---------------------------------------------------------------------
  // Properties

  /** The intraday values and times have equal length and run in reverse
      of the service's order, pair by pair: the i-th stored value is the
      normalized sample of the i-th stored time. */
  lemma IntradayReversedInLockstep(symbol: string, alias: string, series: seq<(string, Json)>, meta: Json)
    requires Collect(series).Ok?
    ensures var data := IntradayEntry(symbol, alias, series, meta).value.fields["data"].fields;
            var values := data["values"].items;
            var times := data["times"].items;
            && |values| == |times| == |series|
            && (forall i :: 0 <= i < |series| ==>
                  && values[i] == Normalize(series[|series| - 1 - i].1).value
                  && times[i] == JStr(series[|series| - 1 - i].0))
  {
    var c := Collect(series).value;
    IntradayData(symbol, alias, series, meta);
    var data := IntradayEntry(symbol, alias, series, meta).value.fields["data"].fields;
    var values, times := Reverse(c.0), JsonStrings(Reverse(c.1));
    assert data["values"].items == values && data["times"].items == times;
    var n := |series|;
    forall i | 0 <= i < n
      ensures values[i] == Normalize(series[n - 1 - i].1).value
      ensures times[i] == JStr(series[n - 1 - i].0)
    {
      assert values[i] == c.0[n - 1 - i];
      assert Reverse(c.1)[i] == c.1[n - 1 - i];
    }
  }

  /** Where IntradayEntry puts the collected values and times. */
  lemma IntradayData(symbol: string, alias: string, series: seq<(string, Json)>, meta: Json)
    requires Collect(series).Ok?
    ensures var c := Collect(series).value;
            IntradayEntry(symbol, alias, series, meta).value.fields["data"].fields
            == map["values" := JArr(Reverse(c.0)), "times" := JArr(JsonStrings(Reverse(c.1)))]
  {
  }

  /** Any mode other than "table" takes the intraday path, whatever the
      quote service would say. */
  lemma OtherModesAreIntraday(mode: string, symbol: string, alias: string,
                              q1: string -> QuoteReply, q2: string -> QuoteReply, intradayFor: string -> IntradayReply)
    requires mode != TABLE_MODE
    ensures Entry(mode, symbol, alias, q1, intradayFor) == Entry(mode, symbol, alias, q2, intradayFor)
  {
  }

  /** An unreachable service fails the crawl with the connection message,
      and nothing is stored. */
  lemma UnreachableFailsCrawl(crawlerId: string, symbols: seq<(string, string)>, mode: string,
                              quoteFor: string -> QuoteReply, intradayFor: string -> IntradayReply,
                              now: int, store: Store)
    requires |symbols| > 0
    requires mode == TABLE_MODE ==> quoteFor(symbols[0].0).QuoteUnreachable?
    requires mode != TABLE_MODE ==> intradayFor(symbols[0].0).IntradayUnreachable?
    ensures Crawl(crawlerId, symbols, mode, quoteFor, intradayFor, now, store) == Err(DataError(CONNECT_MESSAGE))
  {
    assert Entry(mode, symbols[0].0, symbols[0].1, quoteFor, intradayFor) == Err(DataError(CONNECT_MESSAGE));
    assert Entries(symbols, mode, quoteFor, intradayFor) == Err(DataError(CONNECT_MESSAGE));
  }

  /** The template filter is compositional over concatenated lists. */
  lemma ListFilterAppend(a: seq<Json>, b: seq<Json>, key: string)
    requires ListFilter(a, key).Ok? && ListFilter(b, key).Ok?
    ensures ListFilter(a + b, key) == Ok(ListFilter(a, key).value + ListFilter(b, key).value)
  {
    var ab := a + b;
    assert AllHaveKey(a, key) && AllHaveKey(b, key);
    assert AllHaveKey(ab, key) by {
      forall i | 0 <= i < |ab|
        ensures ab[i].JObj? && key in ab[i].fields
      {
        if i < |a| { assert ab[i] == a[i]; } else { assert ab[i] == b[i - |a|]; }
      }
    }
    var la, lb, lab := ListFilter(a, key).value, ListFilter(b, key).value, ListFilter(ab, key).value;
    var expected := la + lb;
    forall i | 0 <= i < |ab|
      ensures lab[i] == expected[i]
    {
      if i < |a| {
        assert ab[i] == a[i] && expected[i] == la[i];
      } else {
        assert ab[i] == b[i - |a|] && expected[i] == lb[i - |a|];
      }
    }
    assert lab == expected;
  }

  /** Table mode keeps the configured order: the i-th stored entry is the
      quote of the i-th symbol, under its alias. */
  lemma TableEntriesInOrder(symbols: seq<(string, string)>, quoteFor: string -> QuoteReply,
                            intradayFor: string -> IntradayReply, i: int)
    requires Entries(symbols, TABLE_MODE, quoteFor, intradayFor).Ok?
    requires 0 <= i < |symbols|
    ensures var data := quoteFor(symbols[i].0).data;
            && quoteFor(symbols[i].0).Quote? && |data| > 0
            && Entries(symbols, TABLE_MODE, quoteFor, intradayFor).value[i]
               == JObj(map["symbol" := JStr(symbols[i].0), "alias" := JStr(symbols[i].1), "data" := data[0]])
  {
    assert Entry(TABLE_MODE, symbols[i].0, symbols[i].1, quoteFor, intradayFor).Ok?;
  }
}
